=== FILE: README.md ===
# crux book recommendations — a Dafny model

crux is a small React application. It asks a reader for preferred genres, a
reading level, a page-count preference and favourite books. It sends those
preferences as a prompt to a text-generation service, which is asked for five
titles separated by pipes. Each title is then looked up in a book catalog,
and every hit is turned into a card record. This project models the pure
logic inside the two page components that do this work. Each part is a
function over immutable data, with its guarantees proved.

| file | module | models |
|---|---|---|
| `wrappers.dfy` | `Wrappers` | `Option`/`Result` for `undefined` and thrown errors |
| `text.dfy` | `Text` | the JavaScript string built-ins the core uses: `trim`, `toLowerCase`, `includes`, `replace` with a string pattern, `split`, `join`, `replace(/\n/g, '')`, number printing |
| `preferences.dfy` | `Preferences` | the genre toggle, the two slider descriptions, the `userData` record and the prompt (`homepage.jsx`) |
| `generation.dfy` | `Generation` | `extractBookTitles` and the outcome classification of `callGeminiAPI` (`homepage.jsx`) |
| `themes.dfy` | `Themes` | `extractThemes` (`suggestions.jsx`) |
| `catalog.dfy` | `Catalog` | the catalog item → card record mapping and the fallback record (`suggestions.jsx`) |
| `batch.dfy` | `Batch` | `fetchBooks`: per-title lookup outcome, the order-preserving map and the `null` filter (`suggestions.jsx`) |

Modelling conventions:
- Strings are ASCII. White space is the same set for `trim` and for the
  regular expression `\s`: space, tab, line feed, vertical tab, form feed and
  carriage return. `toLowerCase` maps `A`–`Z` only.
- JavaScript truthiness is written out explicitly. In `a || b`, an absent
  value, `""`, `0` and `false` select `b`, but an empty array is kept.
  Optional JSON fields are `Option`s.
- The reading-level slider runs from 0 to 10 in steps of 0.1. The model keeps
  it as a whole number of tenths, so the thresholds 3 and 7 become 30 and 70.
  Pages are a natural number.
- The network calls are inputs:
  - the generation reply is a `GenerationReply`;
  - each title's catalog lookup is a `Lookup` (`Found(item)`, `NotFound` or
    `Failed`), which `Batch.LookupOf` derives from the search reply.
- Random values are not computed:
  - a made-up rating is the constructor `Placeholder`;
  - the random id of a fallback record is supplied by the caller.
- A publication year is `YearOf(date)`, named by the date string it is parsed
  from.

A title whose search returns no item maps to `null`, and the `null`s are
filtered out, so such a title is dropped
(`src/components/Homepage/suggestions.jsx:102-105`, `:214`). Only failed
lookups get the fallback record. A hit without `volumeInfo` also gets the
fallback, because reading its fields throws inside the per-title `try`.

## Model

| member | source | states |
|---|---|---|
| Preferences.Without | src/components/Homepage/homepage.jsx:39 | removing a genre leaves no copy of it and keeps every other genre's membership |
| Preferences.ToggleGenre | src/components/Homepage/homepage.jsx:37-41 | after a toggle the genre is selected iff it was not before; every other genre's membership is unchanged |
| Preferences.ToggleKeepsDistinct | src/components/Homepage/homepage.jsx:37-41 | a selection without duplicates stays without duplicates |
| Preferences.ToggleTwiceRestores | src/components/Homepage/homepage.jsx:37-41 | selecting an unselected genre and deselecting it restores the list exactly, order included |
| Preferences.ReadingTierOf | src/components/Homepage/homepage.jsx:49-53 | up to 3 is Beginner, up to 7 Intermediate, anything higher Advanced |
| Preferences.ReadingLevelText | src/components/Homepage/homepage.jsx:49-53 | up to 3 the Beginner description, up to 7 the Intermediate one, above that the Advanced one; always one of the three |
| Preferences.ReadingTierMonotone | src/components/Homepage/homepage.jsx:49-53 | a higher slider value never gives a lower tier |
| Preferences.LengthTierOf | src/components/Homepage/homepage.jsx:55-60 | up to 150 pages is Quick, up to 300 Medium, up to 450 Long, more Epic |
| Preferences.LengthTierMonotone | src/components/Homepage/homepage.jsx:55-60 | more pages never give a shorter tier |
| Preferences.TimeCommitmentText | src/components/Homepage/homepage.jsx:55-60 | the text opens with the tier's label and carries the page count followed by " pages)", or "+ pages)" for Epic |
| Preferences.BuildUserData | src/components/Homepage/homepage.jsx:160-173 | the record keeps the genres and slider values; the reading description comes from the value's tier and the time description is the page-count text; the favourite-books text is the typed text trimmed, so it has no surrounding white space and is empty iff the typed text was all white space |
| Preferences.FavoritesArePadStripped | src/components/Homepage/homepage.jsx:171 | white space typed around the favourite books is removed and nothing else is lost |
| Preferences.PromptCarriesPreferences | src/components/Homepage/homepage.jsx:63-86 | the prompt holds, each on a line of its own, the genres joined with ", ", the reading and time descriptions, the favourite books and the exactly-five and pipes-only instructions |
| Preferences.PromptLinesAt | src/components/Homepage/homepage.jsx:63-86 | the template has 18 lines; the genre, reading, time and favourite-books lines are the fourth to seventh, and the exactly-five and pipes-only instructions the thirteenth and fourteenth |
| Preferences.PromptOpensWithIntro | src/components/Homepage/homepage.jsx:64 | the prompt opens with the role sentence, followed by a line break |
| Generation.TrimAndDropEmpty | src/components/Homepage/homepage.jsx:98-99 | every kept segment is non-empty and has no surrounding white space, and there are no more of them than segments |
| Generation.TrimAndDropEmptyKeeps | src/components/Homepage/homepage.jsx:98-99 | every segment that is not all white space reaches the result, trimmed |
| Generation.TrimAndDropEmptyAppend | src/components/Homepage/homepage.jsx:98-99 | the segments are trimmed and filtered one by one, so the kept segments keep their order |
| Generation.TrimAndDropEmptyOne | src/components/Homepage/homepage.jsx:98-99 | one segment is dropped iff it is all white space, and otherwise kept trimmed |
| Generation.GeneratedText | src/components/Homepage/homepage.jsx:91 | the text is found iff there is a first candidate with content, a first part, and text in it; it is then that part's text |
| Generation.TitlesFromText | src/components/Homepage/homepage.jsx:94-99 | every title is non-empty and trimmed and contains neither a pipe nor a newline |
| Text.JoinSplit | src/components/Homepage/homepage.jsx:97 | joining the pieces of a split with the separator gives back the text, so splitting loses nothing but separators |
| Generation.ExtractBookTitles | src/components/Homepage/homepage.jsx:88-117 | a reply without the candidates/content/parts/text path gives no titles instead of an error; otherwise the titles parsed from the text |
| Generation.TitlesRoundTrip | src/components/Homepage/homepage.jsx:94-99 | text in the requested format "T1 \| T2 \| …" parses back to exactly those titles, in order |
| Generation.ThreeTitles | src/components/Homepage/homepage.jsx:94-99 | "A \| B \| C" gives ["A", "B", "C"] |
| Generation.NewlineJoinsTitle | src/components/Homepage/homepage.jsx:96-97 | a newline never separates titles: two titles with a newline between them, such as "A\nB", parse as the single title "AB" |
| Text.DeleteAppend | src/components/Homepage/homepage.jsx:96 | deleting newlines from two joined texts is deleting them from each and joining the results, so every other character is kept in its order |
| Text.DeleteOne | src/components/Homepage/homepage.jsx:96 | a single character is removed exactly when it is a newline and kept otherwise |
| Generation.ClassifyReply | src/components/Homepage/homepage.jsx:137-151 | a non-ok status fails with the status before anything is extracted; an ok reply succeeds iff at least one title is extracted, and the titles are then the recommendations; an ok reply from which no title is extracted, whether it lacks a text part or its text holds no title, is "Could not extract book recommendations" |
| Generation.ErrorMessage | src/components/Homepage/homepage.jsx:137-151 | only a rejected status and a reply without titles have a message of the code's own: "API request failed: " and the status, or "Could not extract book recommendations" |
| Generation.RejectedStatusIsReported | src/components/Homepage/homepage.jsx:137-139 | a rejected status fails the call before the body is read, and its message carries the status code |
| Themes.AfterQualifier | src/components/Homepage/suggestions.jsx:32-35 | a match means the category is the qualifier, optional white space, a slash, optional white space and then the result; the result is a strictly shorter suffix that does not start with white space |
| Themes.AfterSlash | src/components/Homepage/suggestions.jsx:33 | the `\s*\/\s*` part matches iff the first character after the leading white space is a slash; then the text is white space, a slash, white space and the result, which does not start with white space |
| Themes.CleanCategory | src/components/Homepage/suggestions.jsx:32-35 | a category is changed only if it is "Fiction" or "Non-Fiction", white space, a slash, white space and then the result; the result then does not start with white space |
| Themes.CategoryWithoutSlashKept | src/components/Homepage/suggestions.jsx:32-35 | a category without a slash, such as "Fiction", "Fictional" or "Non-Fiction Essays", is unchanged |
| Themes.CleanCategoryStripsQualifier | src/components/Homepage/suggestions.jsx:32-35 | the qualifier, any white space, a slash and any white space are exactly what is removed |
| Themes.CategoryThemes | src/components/Homepage/suggestions.jsx:29-38 | one cleaned theme per category, in order; no categories give none |
| Themes.AddedKeywords | src/components/Homepage/suggestions.jsx:67-75 | the scan appends vocabulary words in vocabulary order, each mentioned by the description and contained in no theme already present; every mentioned word ends up contained in some theme |
| Themes.AddedKeywordsDistinct | src/components/Homepage/suggestions.jsx:68-74 | no keyword is appended twice |
| Themes.KeywordThemes | src/components/Homepage/suggestions.jsx:41-76 | a missing or empty description adds no keywords; otherwise the keywords are scanned from its lower-cased text |
| Themes.ExtractThemes | src/components/Homepage/suggestions.jsx:25-79 | one to four themes: the first four of the cleaned categories followed by the scanned keywords, or just "General" when that list is empty |
| Themes.ScanPrefixFacts | src/components/Homepage/suggestions.jsx:68-78 | cutting the theme list to its first entries keeps each keyword's guarantees and their distinctness |
| Themes.KeywordThemesAreMentioned | src/components/Homepage/suggestions.jsx:41-78 | every theme after the categories is a vocabulary word the description mentions, contained in no earlier theme, and none repeats |
| Themes.QualifiedCategoryAlone | src/components/Homepage/suggestions.jsx:29-38 | a lone qualified category and no description give just the subject, as "Fiction / War" gives ["War"] |
| Themes.NothingGivesGeneral | src/components/Homepage/suggestions.jsx:78 | no categories and no description give ["General"] |
| Text.ReplaceFirst | src/components/Homepage/suggestions.jsx:120 | a string without the pattern is returned as is; otherwise the first occurrence, and only it, is replaced and everything before and after it is kept |
| Text.ReplaceFirstSplits | src/components/Homepage/suggestions.jsx:120 | an occurrence with none starting before it is the one replaced, whatever follows |
| Catalog.OrElse | src/components/Homepage/suggestions.jsx:113-114 | a present non-empty string is kept; a missing or empty one gives the default |
| Catalog.Secure | src/components/Homepage/suggestions.jsx:120 | rewriting never empties a link and never makes an empty one non-empty |
| Catalog.SecureKeepsOtherLinks | src/components/Homepage/suggestions.jsx:156-160 | a link that does not contain "http:" is unchanged |
| Catalog.SecureUpgradesScheme | src/components/Homepage/suggestions.jsx:156-160 | "http:" + rest becomes "https:" + rest, so a later "http:" is left alone |
| Catalog.SecureUpgradesFirst | src/components/Homepage/suggestions.jsx:156-160 | the first "http:" is upgraded wherever it sits, as in a link with an embedded plain-HTTP address |
| Catalog.LinkOf | src/components/Homepage/suggestions.jsx:156-161 | a missing link is "", a present one is rewritten |
| Catalog.CoverOf | src/components/Homepage/suggestions.jsx:119-126 | the cover is never empty: the rewritten thumbnail, else the rewritten small thumbnail, else the placeholder image |
| Catalog.AuthorOf | src/components/Homepage/suggestions.jsx:115 | the author text is never empty: the authors joined with ", " when that is non-empty, "Unknown Author" when there are none |
| Catalog.PagesOf | src/components/Homepage/suggestions.jsx:129 | pages are positive: a positive page count is kept, a missing or zero one is 200 |
| Catalog.RatingOf | src/components/Homepage/suggestions.jsx:127-128 | the catalog rating is used iff it is present and non-zero |
| Catalog.YearFrom | src/components/Homepage/suggestions.jsx:116-118 | the year is known iff the published date is present and non-empty |
| Catalog.CardDescription | src/components/Homepage/suggestions.jsx:131-135 | the card text is never empty and at most 153 characters: a description over 150 characters is its first 150 plus "...", a shorter one is unchanged, a missing or empty one is "No description available." |
| Catalog.FirstIsbnAt | src/components/Homepage/suggestions.jsx:146-149 | the position found is an ISBN-13 or ISBN-10 entry with none before it; no position means there is no such entry |
| Catalog.IsbnOf | src/components/Homepage/suggestions.jsx:146-149 | no identifiers, or none of ISBN type, give "" |
| Catalog.IsbnIsFirstMatch | src/components/Homepage/suggestions.jsx:146-149 | the ISBN is the identifier of the earliest ISBN entry, whatever follows |
| Catalog.FromVolume | src/components/Homepage/suggestions.jsx:107-181 | every field is the catalog value through its helper, with the helper's default when the value is missing or empty: the item's id; the catalog title, else the queried one; the author, cover, year, rating, pages, card description, ISBN, links, publisher, date and language; the full description, else "No detailed description available."; the buy link and price only with sale information; the categories or ["Fiction"]; the themes of `extractThemes`; the catalog extras |
| Catalog.ExtrasOf | src/components/Homepage/suggestions.jsx:151-180 | the page count as given; print type and maturity rating with their defaults; the upgraded canonical link; saleability defaults to "NOT_FOR_SALE" and the e-book flag is set only by a true `isEbook`; the reader link and snippet are empty when their section is missing |
| Catalog.FromVolumeTakesCatalogValues | src/components/Homepage/suggestions.jsx:113-157 | catalog title, single author and page count are taken over, and a plain-HTTP preview link comes back as HTTPS |
| Catalog.Fallback | src/components/Homepage/suggestions.jsx:185-208 | the fallback record carries the queried title and the given id, no price, no catalog extras and a made-up rating |
| Batch.LookupOf | src/components/Homepage/suggestions.jsx:89-105 | a failed request, a non-ok status or an unreadable body is a failure; an ok, readable response is "not found" iff its item list is missing or empty; the lookup finds an item iff the list is non-empty, and then it is the first item |
| Batch.Resolve | src/components/Homepage/suggestions.jsx:100-208 | a title is dropped iff the catalog found nothing; a failure, or a hit without volume information, gives the fallback record; otherwise the mapped record |
| Batch.ResolveAll | src/components/Homepage/suggestions.jsx:86-88 | one outcome per title, at the title's position |
| Batch.DropMissingMembers | src/components/Homepage/suggestions.jsx:214 | a record is in the filtered list iff it is present among the outcomes |
| Batch.Kept | src/components/Homepage/suggestions.jsx:214 | the kept positions ascend and are exactly the titles the catalog answered for |
| Batch.FetchBooksKeepsOrder | src/components/Homepage/suggestions.jsx:86-214 | the j-th record shown is the record of the j-th answered title |
| Batch.DropMissingAlongKept | src/components/Homepage/suggestions.jsx:214 | filtering the outcomes leaves, in order, the entries at the positions of the answered titles |
| Batch.FetchBooks | src/components/Homepage/suggestions.jsx:86-214 | one record per title, less one per title the catalog did not find |
| Batch.FailedTitleGetsFallback | src/components/Homepage/suggestions.jsx:182-208 | a failed title is shown as the fallback with its title, "Unknown Author", 200 pages, ["Fiction"] and ["General"] |
| Batch.AllAnsweredKeepsEveryTitle | src/components/Homepage/suggestions.jsx:86-214 | when every title is answered, no title is dropped |

## Left out

- React rendering, hooks, state, navigation, `alert`, console logging, the
  loading flags and the logging-only `timestamp` of `userData`: these are
  side effects with no computed result.
- The `fetch` calls and `response.json()`: their outcomes are inputs. The
  model does not derive the generation reply's error message for a rejected
  fetch or unreadable body, because that text comes from the JavaScript
  engine.
- The outer `catch` of `fetchBooks`: every per-title error is already caught,
  so that branch cannot be reached from the modelled inputs.
- `Math.random`: fallback ids are supplied by the caller, and made-up
  ratings are the abstract `Placeholder`.
- `new Date(...).getFullYear()`: a year is named by its date string.
- Number formatting:
  - slider values are printed from tenths, assuming JavaScript shows at most
    one decimal for them;
  - catalog prices and ratings are copied as `real` and never printed.
- Unicode: strings are ASCII, and lengths count characters rather than
  UTF-16 code units.
- CatalogItem: the volume `id` is taken as always present in a catalog hit.
- Catalog.Secure: the contract states only emptiness. What the rewrite does
  is stated by `Catalog.SecureKeepsOtherLinks`,
  `Catalog.SecureUpgradesScheme` and `Catalog.SecureUpgradesFirst`.
- Themes.KeywordThemesAreMentioned: states nothing when the result is the
  lone default "General".

=== FILE: batch.dfy ===
/** `fetchBooks` of src/components/Homepage/suggestions.jsx: every title is
    looked up in the catalog, the outcomes are turned into records in title
    order, and titles the catalog does not know are dropped. The concurrent
    `Promise.all` is an order-preserving map; the lookups themselves are
    inputs. */
module Batch {
  import opened Wrappers
  import opened Catalog

  // ---------------------------------------------------------------------
  // One lookup

  /** The parsed search response: `items`, when present. */
  datatype SearchResponse = SearchResponse(items: Option<seq<CatalogItem>>)

  /** What the catalog request produced: no response at all, or a status and
      a body that may not parse. */
  datatype SearchReply =
    | Unreachable
    | SearchHttp(ok: bool, status: nat, body: Option<SearchResponse>)

  /** The outcome of one title's lookup: the first hit, no hit, or an error
      thrown anywhere inside the per-title `try`. */
  datatype Lookup = Found(item: CatalogItem) | NotFound | Failed

  /** A failed request, a non-ok status or an unreadable body is a failure;
      a response without items is "not found"; otherwise the first item. */
  function LookupOf(reply: SearchReply): (r: Lookup)
    ensures reply.Unreachable? || !reply.ok || reply.body.None? ==> r == Failed
    ensures r.Found? <==> (reply.SearchHttp? && reply.ok && reply.body.Some?
      && reply.body.value.items.Some? && |reply.body.value.items.value| > 0)
    ensures r.Found? ==> r.item == reply.body.value.items.value[0]
    ensures r.NotFound? <==> (reply.SearchHttp? && reply.ok && reply.body.Some?
      && (reply.body.value.items.None? || |reply.body.value.items.value| == 0))
  {
    match reply
    case Unreachable => Failed
    case SearchHttp(ok, _, body) =>
      if !ok || body.None? then Failed
      else match body.value.items
        case None => NotFound
        case Some(items) => if |items| == 0 then NotFound else Found(items[0])
  }

  /** One title's entry in the `Promise.all` result: `null` when the catalog
      has nothing, the fallback when anything went wrong (an item without
      volume information fails when its fields are read), else the mapped
      record. */
  function Resolve(title: string, lookup: Lookup, fallbackId: string): (r: Option<Book>)
    ensures r.None? <==> lookup.NotFound?
    ensures lookup.Failed? ==> r == Some(Fallback(title, fallbackId))
    ensures lookup.Found? && lookup.item.volumeInfo.None? ==> r == Some(Fallback(title, fallbackId))
    ensures lookup.Found? && lookup.item.volumeInfo.Some?
      ==> r == Some(FromVolume(title, lookup.item, lookup.item.volumeInfo.value))
  {
    match lookup
    case NotFound => None
    case Failed => Some(Fallback(title, fallbackId))
    case Found(item) =>
      match item.volumeInfo
      case None => Some(Fallback(title, fallbackId))
      case Some(vi) => Some(FromVolume(title, item, vi))
  }

  // ---------------------------------------------------------------------
  // The batch

  /** `bookTitles.map(...)` awaited with `Promise.all`. */
  function ResolveAll(titles: seq<string>, lookups: seq<Lookup>, ids: seq<string>): (r: seq<Option<Book>>)
    requires |lookups| == |titles| && |ids| == |titles|
    ensures |r| == |titles|
    ensures forall i :: 0 <= i < |r| ==> r[i] == Resolve(titles[i], lookups[i], ids[i])
  {
    seq(|titles|, i requires 0 <= i < |titles| => Resolve(titles[i], lookups[i], ids[i]))
  }

  /** `results.filter(book => book !== null)`. */
  function DropMissing<T>(xs: seq<Option<T>>): (r: seq<T>)
    ensures |r| <= |xs|
  {
    if |xs| == 0 then []
    else
      var init := DropMissing(xs[..|xs| - 1]);
      if xs[|xs| - 1].Some? then init + [xs[|xs| - 1].value] else init
  }

  /** The filter keeps exactly the present entries. */
  lemma {:induction false} DropMissingMembers<T>(xs: seq<Option<T>>, b: T)
    ensures b in DropMissing(xs) <==> Some(b) in xs
    decreases |xs|
  {
    if |xs| > 0 {
      var n := |xs| - 1;
      DropMissingMembers(xs[..n], b);
      assert Some(b) in xs <==> Some(b) in xs[..n] || Some(b) == xs[n] by {
        assert xs == xs[..n] + [xs[n]];
      }
    }
  }

  /** The books shown for the recommended titles: one record per title,
      less one per title the catalog did not find. */
  function FetchBooks(titles: seq<string>, lookups: seq<Lookup>, ids: seq<string>): (r: seq<Book>)
    requires |lookups| == |titles| && |ids| == |titles|
    ensures |r| == |titles| - CountNotFound(lookups)
  {
    var all := ResolveAll(titles, lookups, ids);
    DropMissingAlongKept(all, lookups);
    KeptCount(lookups);
    DropMissing(all)
  }

  // ---------------------------------------------------------------------
  // Order and length

  /** The positions of the titles the catalog answered for, ascending. */
  function Kept(lookups: seq<Lookup>): (r: seq<nat>)
    ensures forall j :: 0 <= j < |r| ==> r[j] < |lookups| && !lookups[r[j]].NotFound?
    ensures forall j, j' :: 0 <= j < j' < |r| ==> r[j] < r[j']
    ensures forall i :: 0 <= i < |lookups| && !lookups[i].NotFound? ==> i in r
  {
    if |lookups| == 0 then []
    else
      var init := Kept(lookups[..|lookups| - 1]);
      assert forall i :: 0 <= i < |lookups| - 1 ==> lookups[..|lookups| - 1][i] == lookups[i];
      if lookups[|lookups| - 1].NotFound? then init else init + [|lookups| - 1]
  }

  function CountNotFound(lookups: seq<Lookup>): (n: nat)
    ensures n <= |lookups|
  {
    if |lookups| == 0 then 0
    else CountNotFound(lookups[..|lookups| - 1]) + if lookups[|lookups| - 1].NotFound? then 1 else 0
  }

  /** Entry `j` of the shown list is the record of the `j`-th answered title:
      the titles keep their order and only the unanswered ones are gone. */
  lemma FetchBooksKeepsOrder(titles: seq<string>, lookups: seq<Lookup>, ids: seq<string>)
    requires |lookups| == |titles| && |ids| == |titles|
    ensures var r := FetchBooks(titles, lookups, ids);
      var kept := Kept(lookups);
      && |r| == |kept|
      && forall j :: 0 <= j < |r| ==> Some(r[j]) == Resolve(titles[kept[j]], lookups[kept[j]], ids[kept[j]])
  {
    DropMissingAlongKept(ResolveAll(titles, lookups, ids), lookups);
  }

  /** `r` lists the entries of `xs` found at the positions `kept`. */
  ghost predicate Along<T>(xs: seq<Option<T>>, r: seq<T>, kept: seq<nat>) {
    && |r| == |kept|
    && forall j :: 0 <= j < |r| ==> kept[j] < |xs| && Some(r[j]) == xs[kept[j]]
  }

  /** Filtering out the missing entries of a list whose gaps sit exactly at
      the unanswered lookups leaves the entries at the kept positions. */
  lemma {:induction false} DropMissingAlongKept<T>(xs: seq<Option<T>>, lookups: seq<Lookup>)
    requires |xs| == |lookups|
    requires forall i :: 0 <= i < |xs| ==> (xs[i].None? <==> lookups[i].NotFound?)
    ensures Along(xs, DropMissing(xs), Kept(lookups))
    decreases |xs|
  {
    if |xs| > 0 {
      var n := |xs| - 1;
      var init, initLookups := xs[..n], lookups[..n];
      assert forall i :: 0 <= i < n ==> (init[i].None? <==> initLookups[i].NotFound?) by {
        forall i | 0 <= i < n ensures init[i].None? <==> initLookups[i].NotFound? {
          assert init[i] == xs[i] && initLookups[i] == lookups[i];
        }
      }
      DropMissingAlongKept(init, initLookups);
      AlongKeptStep(xs, lookups);
    }
  }

  /** The induction step: the last position is kept exactly when its entry
      is present. */
  lemma AlongKeptStep<T>(xs: seq<Option<T>>, lookups: seq<Lookup>)
    requires |xs| == |lookups| > 0
    requires xs[|xs| - 1].None? <==> lookups[|xs| - 1].NotFound?
    requires Along(xs[..|xs| - 1], DropMissing(xs[..|xs| - 1]), Kept(lookups[..|xs| - 1]))
    ensures Along(xs, DropMissing(xs), Kept(lookups))
  {
    var n := |xs| - 1;
    var r', kept' := DropMissing(xs[..n]), Kept(lookups[..n]);
    AlongExtends(xs[..n], xs, r', kept');
    AppendKept(xs, r', kept', n);
    DropMissingLast(xs);
    KeptLast(lookups);
  }

  lemma DropMissingLast<T>(xs: seq<Option<T>>)
    requires |xs| > 0
    ensures var n := |xs| - 1;
      DropMissing(xs) == DropMissing(xs[..n]) + (if xs[n].Some? then [xs[n].value] else [])
  {
  }

  lemma KeptLast(lookups: seq<Lookup>)
    requires |lookups| > 0
    ensures var n := |lookups| - 1;
      Kept(lookups) == if lookups[n].NotFound? then Kept(lookups[..n]) else Kept(lookups[..n]) + [n]
  {
  }

  /** What lies along a prefix lies along the whole list. */
  lemma AlongExtends<T>(init: seq<Option<T>>, xs: seq<Option<T>>, r: seq<T>, kept: seq<nat>)
    requires |init| <= |xs| && init == xs[..|init|]
    requires Along(init, r, kept)
    ensures Along(xs, r, kept)
  {
    forall j | 0 <= j < |r| ensures kept[j] < |xs| && Some(r[j]) == xs[kept[j]] {
      assert init[kept[j]] == xs[kept[j]];
    }
  }

  /** One more position: the entry is appended exactly when it is present. */
  lemma AppendKept<T>(xs: seq<Option<T>>, r': seq<T>, kept': seq<nat>, n: nat)
    requires n < |xs| && Along(xs, r', kept')
    ensures Along(xs, r' + (if xs[n].Some? then [xs[n].value] else []),
      if xs[n].Some? then kept' + [n] else kept')
  {
  }

  lemma {:induction false} KeptCount(lookups: seq<Lookup>)
    ensures |Kept(lookups)| == |lookups| - CountNotFound(lookups)
    decreases |lookups|
  {
    if |lookups| > 0 {
      KeptCount(lookups[..|lookups| - 1]);
    }
  }

  /** A title whose lookup failed is still shown, as the fallback record
      carrying the queried title and the unknown-book defaults. */
  lemma FailedTitleGetsFallback(titles: seq<string>, lookups: seq<Lookup>, ids: seq<string>, i: nat)
    requires |lookups| == |titles| && |ids| == |titles|
    requires i < |titles| && lookups[i].Failed?
    ensures var b := Fallback(titles[i], ids[i]);
      && b in FetchBooks(titles, lookups, ids)
      && b.title == titles[i] && b.author == UnknownAuthor && b.pages == 200
      && b.genre == ["Fiction"] && b.themes == ["General"]
  {
    var all := ResolveAll(titles, lookups, ids);
    assert all[i] == Some(Fallback(titles[i], ids[i]));
    DropMissingMembers(all, Fallback(titles[i], ids[i]));
  }

  /** When every title is answered nothing is dropped. */
  lemma AllAnsweredKeepsEveryTitle(titles: seq<string>, lookups: seq<Lookup>, ids: seq<string>)
    requires |lookups| == |titles| && |ids| == |titles|
    requires forall i :: 0 <= i < |lookups| ==> !lookups[i].NotFound?
    ensures |FetchBooks(titles, lookups, ids)| == |titles|
  {
    FetchBooksKeepsOrder(titles, lookups, ids);
    KeptIsEverything(lookups);
  }

  lemma {:induction false} KeptIsEverything(lookups: seq<Lookup>)
    requires forall i :: 0 <= i < |lookups| ==> !lookups[i].NotFound?
    ensures |Kept(lookups)| == |lookups|
    decreases |lookups|
  {
    if |lookups| > 0 {
      KeptIsEverything(lookups[..|lookups| - 1]);
    }
  }
}

=== FILE: catalog.dfy ===
/** One catalog search hit turned into the record a book card displays, and
    the fixed record shown when the lookup failed
    (src/components/Homepage/suggestions.jsx). Every `a || b` of the source is
    JavaScript truthiness: an absent field, an empty string, `0` and `false`
    take the default, while an empty array is kept. */
module Catalog {
  import opened Wrappers
  import opened Text
  import Themes

  // ---------------------------------------------------------------------
  // The catalog's volume resource, as far as the mapping reads it

  datatype ImageLinks = ImageLinks(thumbnail: Option<string>, smallThumbnail: Option<string>)

  /** One entry of `industryIdentifiers`. */
  datatype Identifier = Identifier(kind: string, identifier: Option<string>)

  /** `listPrice`; the amount is copied, never computed with. */
  datatype ListPrice = ListPrice(amount: Option<real>, currencyCode: Option<string>)

  datatype VolumeInfo = VolumeInfo(
    title: Option<string>,
    subtitle: Option<string>,
    authors: Option<seq<string>>,
    publishedDate: Option<string>,
    imageLinks: Option<ImageLinks>,
    averageRating: Option<real>,
    pageCount: Option<nat>,
    categories: Option<seq<string>>,
    description: Option<string>,
    publisher: Option<string>,
    industryIdentifiers: Option<seq<Identifier>>,
    language: Option<string>,
    printType: Option<string>,
    maturityRating: Option<string>,
    previewLink: Option<string>,
    infoLink: Option<string>,
    canonicalVolumeLink: Option<string>)

  datatype SaleInfo = SaleInfo(
    saleability: Option<string>,
    isEbook: Option<bool>,
    buyLink: Option<string>,
    listPrice: Option<ListPrice>)

  datatype AccessInfo = AccessInfo(webReaderLink: Option<string>)
  datatype SearchInfo = SearchInfo(textSnippet: Option<string>)

  /** The first item of a search response. */
  datatype CatalogItem = CatalogItem(
    id: string,
    volumeInfo: Option<VolumeInfo>,
    saleInfo: Option<SaleInfo>,
    accessInfo: Option<AccessInfo>,
    searchInfo: Option<SearchInfo>)

  // ---------------------------------------------------------------------
  // The display record

  /** The catalog's average rating, or the random rating between 3.5 and 5.5
      the source makes up when there is none. */
  datatype Rating = Rated(stars: real) | Placeholder

  /** The publication year: the calendar year of the published date, or
      "Unknown". Date parsing is not modelled, so a year is named by the date
      it comes from. */
  datatype Year = UnknownYear | YearOf(date: string)

  /** Fields only a record built from a catalog item has. */
  datatype CatalogExtras = CatalogExtras(
    pageCount: Option<nat>,
    printType: string,
    maturityRating: string,
    canonicalVolumeLink: string,
    saleability: string,
    isEbook: bool,
    webReaderLink: string,
    textSnippet: string)

  datatype Book = Book(
    id: string,
    title: string,
    subtitle: string,
    author: string,
    year: Year,
    cover: string,
    rating: Rating,
    pages: nat,
    genre: seq<string>,
    description: string,
    longDescription: string,
    themes: seq<string>,
    publisher: string,
    publishedDate: string,
    isbn: string,
    language: string,
    previewLink: string,
    infoLink: string,
    buyLink: string,
    price: Option<ListPrice>,
    extras: Option<CatalogExtras>)

  const NoCover := "https://via.placeholder.com/128x192/D8D2C2/4A4947?text=No+Cover"
  const UnknownAuthor := "Unknown Author"
  const DefaultPages: nat := 200
  const DefaultGenre: seq<string> := ["Fiction"]
  const CardLimit: nat := 150
  const Ellipsis := "..."
  const NoDescription := "No description available."
  const NoLongDescription := "No detailed description available."

  // ---------------------------------------------------------------------
  // Field helpers

  /** `s || d` for an optional string: absent and empty both give `d`. */
  function OrElse(s: Option<string>, d: string): (r: string)
    ensures s.Some? && |s.value| > 0 ==> r == s.value
    ensures s.None? || |s.value| == 0 ==> r == d
  {
    if s.Some? && |s.value| > 0 then s.value else d
  }

  /** `link.replace("http:", "https:")`: the first "http:" only. */
  function Secure(link: string): (r: string)
    ensures |r| == 0 <==> |link| == 0
  {
    ReplaceFirst(link, "http:", "https:")
  }

  /** A link without "http:" comes through unchanged. */
  lemma SecureKeepsOtherLinks(link: string)
    requires !Contains(link, "http:")
    ensures Secure(link) == link
  {
  }

  /** A plain-HTTP link is upgraded to HTTPS; any later "http:" in it is left
      alone. */
  lemma SecureUpgradesScheme(rest: string)
    ensures Secure("http:" + rest) == "https:" + rest
  {
    ReplaceFirstAtStart("http:", rest, "https:");
  }

  /** Only the first "http:" is upgraded, wherever it sits: a link such as
      "https://a/?u=http://b" gets its embedded "http:" rewritten. */
  lemma SecureUpgradesFirst(a: string, b: string)
    requires forall j :: 0 <= j < |a| ==> !StartsWith((a + "http:" + b)[j..], "http:")
    ensures Secure(a + "http:" + b) == a + "https:" + b
  {
    ReplaceFirstSplits(a, "http:", b, "https:");
  }

  /** `x?.link?.replace("http:", "https:") || ""`. */
  function LinkOf(link: Option<string>): (r: string)
    ensures link.None? ==> r == ""
    ensures link.Some? ==> r == Secure(link.value)
  {
    match link
    case None => ""
    case Some(l) => Secure(l)
  }

  /** The thumbnail, else the small thumbnail, else the placeholder image;
      an empty link counts as missing. */
  function CoverOf(images: Option<ImageLinks>): (r: string)
    ensures |r| > 0
    ensures images.None? ==> r == NoCover
    ensures images.Some? && images.value.thumbnail.Some? && |images.value.thumbnail.value| > 0
      ==> r == Secure(images.value.thumbnail.value)
    ensures images.Some? && (images.value.thumbnail.None? || |images.value.thumbnail.value| == 0)
      && images.value.smallThumbnail.Some? && |images.value.smallThumbnail.value| > 0
      ==> r == Secure(images.value.smallThumbnail.value)
    ensures images.Some? && (images.value.thumbnail.None? || |images.value.thumbnail.value| == 0)
      && (images.value.smallThumbnail.None? || |images.value.smallThumbnail.value| == 0)
      ==> r == NoCover
  {
    match images
    case None => NoCover
    case Some(links) =>
      OrElse(Some(LinkOf(links.thumbnail)), OrElse(Some(LinkOf(links.smallThumbnail)), NoCover))
  }

  /** `authors?.join(", ") || "Unknown Author"`. */
  function AuthorOf(authors: Option<seq<string>>): (r: string)
    ensures |r| > 0
    ensures authors.Some? && |Join(authors.value, ", ")| > 0 ==> r == Join(authors.value, ", ")
    ensures authors.None? || |Join(authors.value, ", ")| == 0 ==> r == UnknownAuthor
  {
    match authors
    case None => UnknownAuthor
    case Some(a) => OrElse(Some(Join(a, ", ")), UnknownAuthor)
  }

  /** `pageCount || 200`. */
  function PagesOf(pageCount: Option<nat>): (r: nat)
    ensures r > 0
    ensures pageCount.Some? && pageCount.value > 0 ==> r == pageCount.value
    ensures pageCount.None? || pageCount.value == 0 ==> r == DefaultPages
  {
    if pageCount.Some? && pageCount.value > 0 then pageCount.value else DefaultPages
  }

  /** `averageRating || <random>`: a zero rating is replaced as well. */
  function RatingOf(averageRating: Option<real>): (r: Rating)
    ensures r.Rated? <==> averageRating.Some? && averageRating.value != 0.0
    ensures r.Rated? ==> r.stars == averageRating.value
  {
    if averageRating.Some? && averageRating.value != 0.0 then Rated(averageRating.value) else Placeholder
  }

  function YearFrom(publishedDate: Option<string>): (r: Year)
    ensures r.YearOf? <==> publishedDate.Some? && |publishedDate.value| > 0
    ensures r.YearOf? ==> r.date == publishedDate.value
  {
    if publishedDate.Some? && |publishedDate.value| > 0 then YearOf(publishedDate.value) else UnknownYear
  }

  /** The card text: at most 150 characters of the description plus an
      ellipsis, or a notice when there is no description. */
  function CardDescription(description: Option<string>): (r: string)
    ensures |r| > 0
    ensures |r| <= CardLimit + |Ellipsis|
    ensures description.None? || |description.value| == 0 ==> r == NoDescription
    ensures description.Some? && 0 < |description.value| <= CardLimit ==> r == description.value
    ensures description.Some? && |description.value| > CardLimit
      ==> |r| == CardLimit + |Ellipsis| && StartsWith(description.value, r[..CardLimit]) && r[CardLimit..] == Ellipsis
  {
    match description
    case None => NoDescription
    case Some(d) =>
      if |d| == 0 then NoDescription
      else if |d| > CardLimit then d[..CardLimit] + Ellipsis
      else d
  }

  predicate IsIsbn(id: Identifier) {
    id.kind == "ISBN_13" || id.kind == "ISBN_10"
  }

  /** `find`: the position of the first ISBN entry, if there is one. */
  function FirstIsbnAt(ids: seq<Identifier>): (r: Option<nat>)
    ensures r.Some? ==> r.value < |ids| && IsIsbn(ids[r.value])
    ensures r.Some? ==> forall j :: 0 <= j < r.value ==> !IsIsbn(ids[j])
    ensures r.None? ==> forall j :: 0 <= j < |ids| ==> !IsIsbn(ids[j])
  {
    if |ids| == 0 then None
    else if IsIsbn(ids[0]) then Some(0)
    else
      match FirstIsbnAt(ids[1..])
      case None => None
      case Some(k) => Some(k + 1)
  }

  /** `industryIdentifiers?.find(isbn)?.identifier || ""`. */
  function IsbnOf(ids: Option<seq<Identifier>>): (r: string)
    ensures ids.None? ==> r == ""
    ensures ids.Some? && (forall j :: 0 <= j < |ids.value| ==> !IsIsbn(ids.value[j])) ==> r == ""
  {
    match ids
    case None => ""
    case Some(list) =>
      match FirstIsbnAt(list)
      case None => ""
      case Some(i) => OrElse(list[i].identifier, "")
  }

  /** The ISBN is taken from the earliest ISBN entry, whatever follows it. */
  lemma IsbnIsFirstMatch(before: seq<Identifier>, hit: Identifier, after: seq<Identifier>)
    requires forall j :: 0 <= j < |before| ==> !IsIsbn(before[j])
    requires IsIsbn(hit)
    ensures IsbnOf(Some(before + [hit] + after)) == OrElse(hit.identifier, "")
  {
    var list := before + [hit] + after;
    var i := FirstIsbnAt(list);
    assert list[|before|] == hit;
    assert forall j :: 0 <= j < |before| ==> list[j] == before[j];
  }

  // ---------------------------------------------------------------------
  // The two records

  /** The fields only a catalog record carries: the volume's page count as
      given, its print type and maturity rating with their defaults, the
      upgraded canonical link, and the sale, reader and snippet fields, each
      empty or at its default when the item lacks the section. */
  function ExtrasOf(vi: VolumeInfo, item: CatalogItem): (r: CatalogExtras)
    ensures r.pageCount == vi.pageCount
    ensures r.printType == OrElse(vi.printType, "BOOK")
    ensures r.maturityRating == OrElse(vi.maturityRating, "NOT_MATURE")
    ensures r.canonicalVolumeLink == LinkOf(vi.canonicalVolumeLink)
    ensures r.isEbook <==> item.saleInfo.Some? && item.saleInfo.value.isEbook == Some(true)
    ensures item.saleInfo.None? ==> r.saleability == "NOT_FOR_SALE"
    ensures item.saleInfo.Some? ==> r.saleability == OrElse(item.saleInfo.value.saleability, "NOT_FOR_SALE")
    ensures item.accessInfo.None? ==> r.webReaderLink == ""
    ensures item.accessInfo.Some? ==> r.webReaderLink == LinkOf(item.accessInfo.value.webReaderLink)
    ensures item.searchInfo.None? ==> r.textSnippet == ""
    ensures item.searchInfo.Some? ==> r.textSnippet == OrElse(item.searchInfo.value.textSnippet, "")
  {
    var sale := item.saleInfo;
    CatalogExtras(
      vi.pageCount,
      OrElse(vi.printType, "BOOK"),
      OrElse(vi.maturityRating, "NOT_MATURE"),
      LinkOf(vi.canonicalVolumeLink),
      OrElse(if sale.Some? then sale.value.saleability else None, "NOT_FOR_SALE"),
      sale.Some? && sale.value.isEbook == Some(true),
      if item.accessInfo.Some? then LinkOf(item.accessInfo.value.webReaderLink) else "",
      if item.searchInfo.Some? then OrElse(item.searchInfo.value.textSnippet, "") else "")
  }

  /** The record built from a catalog item with volume information for the
      queried `title`. Every field is the catalog value through its helper
      above, with that helper's default when the value is missing or empty.
      Text the card shows is never empty; the themes are those
      `extractThemes` computes from the same categories and description;
      missing categories become ["Fiction"] but an empty list stays empty. */
  function FromVolume(title: string, item: CatalogItem, vi: VolumeInfo): (b: Book)
    ensures b.id == item.id
    ensures b.title == OrElse(vi.title, title)
    ensures vi.title.None? || |vi.title.value| == 0 ==> b.title == title
    ensures b.subtitle == OrElse(vi.subtitle, "")
    ensures b.author == AuthorOf(vi.authors) && b.cover == CoverOf(vi.imageLinks)
    ensures b.year == YearFrom(vi.publishedDate) && b.rating == RatingOf(vi.averageRating)
    ensures b.pages == PagesOf(vi.pageCount)
    ensures b.description == CardDescription(vi.description)
    ensures b.longDescription == OrElse(vi.description, NoLongDescription)
    ensures vi.description.None? || |vi.description.value| == 0 ==> b.longDescription == NoLongDescription
    ensures vi.description.Some? && |vi.description.value| > 0 ==> b.longDescription == vi.description.value
    ensures b.publisher == OrElse(vi.publisher, "Unknown Publisher")
    ensures b.publishedDate == OrElse(vi.publishedDate, "Unknown")
    ensures b.isbn == IsbnOf(vi.industryIdentifiers)
    ensures b.language == OrElse(vi.language, "en")
    ensures b.previewLink == LinkOf(vi.previewLink) && b.infoLink == LinkOf(vi.infoLink)
    ensures item.saleInfo.None? ==> b.buyLink == "" && b.price.None?
    ensures item.saleInfo.Some? ==> b.buyLink == LinkOf(item.saleInfo.value.buyLink)
    ensures item.saleInfo.Some? ==> b.price == item.saleInfo.value.listPrice
    ensures |b.author| > 0 && |b.cover| > 0 && |b.description| > 0 && |b.longDescription| > 0
    ensures |b.publisher| > 0 && |b.publishedDate| > 0 && |b.language| > 0
    ensures b.pages > 0
    ensures vi.categories.None? ==> b.genre == DefaultGenre
    ensures vi.categories.Some? ==> b.genre == vi.categories.value
    ensures 1 <= |b.themes| <= Themes.MaxThemes
    ensures b.themes == Themes.ExtractThemes(vi.categories, vi.description)
    ensures b.extras == Some(ExtrasOf(vi, item))
  {
    var sale := item.saleInfo;
    Book(
      item.id,
      OrElse(vi.title, title),
      OrElse(vi.subtitle, ""),
      AuthorOf(vi.authors),
      YearFrom(vi.publishedDate),
      CoverOf(vi.imageLinks),
      RatingOf(vi.averageRating),
      PagesOf(vi.pageCount),
      vi.categories.GetOr(DefaultGenre),
      CardDescription(vi.description),
      OrElse(vi.description, NoLongDescription),
      Themes.ExtractThemes(vi.categories, vi.description),
      OrElse(vi.publisher, "Unknown Publisher"),
      OrElse(vi.publishedDate, "Unknown"),
      IsbnOf(vi.industryIdentifiers),
      OrElse(vi.language, "en"),
      LinkOf(vi.previewLink),
      LinkOf(vi.infoLink),
      if sale.Some? then LinkOf(sale.value.buyLink) else "",
      if sale.Some? then sale.value.listPrice else None,
      Some(ExtrasOf(vi, item)))
  }

  /** The record shown for a title whose lookup failed: the queried title
      with every other field at its "unknown" value. `id` stands for the
      random identifier the source generates. */
  function Fallback(title: string, id: string): (b: Book)
    ensures b.title == title && b.id == id
    ensures b.extras.None? && b.price.None? && b.rating.Placeholder?
  {
    Book(
      id, title, "", UnknownAuthor, UnknownYear, NoCover, Placeholder, DefaultPages, DefaultGenre,
      "Book information could not be retrieved.",
      "Book information could not be retrieved from Google Books API.",
      [Themes.DefaultTheme],
      "Unknown Publisher", "Unknown", "", "en", "", "", "", None, None)
  }

  /** A fully described catalog item: title, authors and pages are taken over,
      the description is cut to the card's length, and the plain-HTTP preview
      link is upgraded. */
  lemma FromVolumeTakesCatalogValues(title: string, item: CatalogItem, vi: VolumeInfo, t: string, a: string, n: nat, rest: string)
    requires vi.title == Some(t) && |t| > 0
    requires vi.authors == Some([a]) && |a| > 0
    requires vi.pageCount == Some(n) && n > 0
    requires vi.previewLink == Some("http:" + rest)
    ensures var b := FromVolume(title, item, vi);
      b.title == t && b.author == a && b.pages == n && b.previewLink == "https:" + rest
  {
    SecureUpgradesScheme(rest);
  }
}

=== FILE: generation.dfy ===
/** Reading the generation service's reply: locating the generated text,
    cutting it into book titles, and classifying the call's outcome
    (`extractBookTitles` and `callGeminiAPI` in
    src/components/Homepage/homepage.jsx). */
module Generation {
  import opened Wrappers
  import opened Text

  /** The parts of the service's JSON reply that the code reads. A missing
      array and an empty one behave alike (both make `[0]` undefined), so an
      absent `candidates` or `parts` is an empty sequence. */
  datatype Part = Part(text: Option<string>)
  datatype Content = Content(parts: seq<Part>)
  datatype Candidate = Candidate(content: Option<Content>)
  datatype GenerationResponse = GenerationResponse(candidates: seq<Candidate>)

  /** `apiResponse.candidates[0].content.parts[0].text`, or None where the
      source would throw a TypeError. */
  function GeneratedText(resp: GenerationResponse): (r: Option<string>)
    ensures r.Some? <==> && |resp.candidates| > 0 && resp.candidates[0].content.Some?
                         && |resp.candidates[0].content.value.parts| > 0
                         && resp.candidates[0].content.value.parts[0].text.Some?
    ensures r.Some? ==> r == resp.candidates[0].content.value.parts[0].text
  {
    if |resp.candidates| == 0 then None
    else
      match resp.candidates[0].content
      case None => None
      case Some(content) =>
        if |content.parts| == 0 then None else content.parts[0].text
  }

  /** Non-empty, with no white space at either end. */
  predicate Nonblank(t: string) {
    |t| > 0 && IsTrimmed(t)
  }

  /** What a usable title looks like. */
  predicate ValidTitle(t: string) {
    Nonblank(t) && '|' !in t && '\n' !in t
  }

  /** `.map(book => book.trim()).filter(book => book.length > 0)`. */
  function TrimAndDropEmpty(segments: seq<string>): (r: seq<string>)
    ensures |r| <= |segments|
    ensures forall i :: 0 <= i < |r| ==> Nonblank(r[i])
  {
    if |segments| == 0 then []
    else
      var t := Trim(segments[0]);
      if |t| > 0 then [t] + TrimAndDropEmpty(segments[1..]) else TrimAndDropEmpty(segments[1..])
  }

  /** Nothing usable is dropped: every segment that is not all white space
      reaches the result, trimmed. */
  lemma {:induction false} TrimAndDropEmptyKeeps(segments: seq<string>, i: nat)
    requires i < |segments| && |Trim(segments[i])| > 0
    ensures Trim(segments[i]) in TrimAndDropEmpty(segments)
    decreases |segments|
  {
    var t, rest := Trim(segments[0]), TrimAndDropEmpty(segments[1..]);
    assert TrimAndDropEmpty(segments) == if |t| > 0 then [t] + rest else rest;
    if i > 0 {
      assert segments[i] == segments[1..][i - 1];
      TrimAndDropEmptyKeeps(segments[1..], i - 1);
    }
  }

  /** Trimming and filtering works segment by segment, so the kept
      segments stay in their original order. */
  lemma {:induction false} TrimAndDropEmptyAppend(a: seq<string>, b: seq<string>)
    ensures TrimAndDropEmpty(a + b) == TrimAndDropEmpty(a) + TrimAndDropEmpty(b)
    decreases |a|
  {
    if |a| == 0 {
      assert a + b == b;
    } else {
      assert (a + b)[0] == a[0];
      assert (a + b)[1..] == a[1..] + b;
      TrimAndDropEmptyAppend(a[1..], b);
    }
  }

  /** A single segment is dropped when it is all white space and is
      otherwise kept, trimmed. */
  lemma TrimAndDropEmptyOne(s: string)
    ensures TrimAndDropEmpty([s]) == if AllSpace(s) then [] else [Trim(s)]
  {
    assert [s][0] == s;
    assert [s][1..] == [];
  }

  /** No string of `xs` contains `c`. */
  predicate NoneHas(xs: seq<string>, c: char) {
    forall i :: 0 <= i < |xs| ==> c !in xs[i]
  }

  lemma NoneHasTail(xs: seq<string>, c: char)
    requires |xs| > 0 && NoneHas(xs, c)
    ensures NoneHas(xs[1..], c)
  {
    forall i | 0 <= i < |xs| - 1 ensures c !in xs[1..][i] {
      assert xs[1..][i] == xs[i + 1];
    }
  }

  lemma NoneHasCons(t: string, xs: seq<string>, c: char)
    requires c !in t && NoneHas(xs, c)
    ensures NoneHas([t] + xs, c)
  {
    forall i | 0 <= i < |xs| + 1 ensures c !in ([t] + xs)[i] {
      if i > 0 {
        assert ([t] + xs)[i] == xs[i - 1];
      }
    }
  }

  /** No character appears in a title that was absent from every segment. */
  lemma {:induction false} TrimAndDropEmptyKeepsAbsent(segments: seq<string>, c: char)
    requires NoneHas(segments, c)
    ensures NoneHas(TrimAndDropEmpty(segments), c)
  {
    if |segments| > 0 {
      NoneHasTail(segments, c);
      TrimAndDropEmptyKeepsAbsent(segments[1..], c);
      TrimKeepsAbsent(segments[0], c);
      var t := Trim(segments[0]);
      if |t| > 0 {
        NoneHasCons(t, TrimAndDropEmpty(segments[1..]), c);
      }
    }
  }

  /** The text pipeline of `extractBookTitles`: trim, delete every newline,
      split on `|`, trim each piece, drop the empty ones. Every title that
      comes out is non-empty, trimmed, and free of pipes and newlines. */
  function TitlesFromText(text: string): (r: seq<string>)
    ensures forall i :: 0 <= i < |r| ==> ValidTitle(r[i])
  {
    var joined := Delete(Trim(text), '\n');
    var segments := Split(joined, '|');
    SplitKeepsAbsent(joined, '|', '\n');
    TrimAndDropEmptyKeepsAbsent(segments, '|');
    TrimAndDropEmptyKeepsAbsent(segments, '\n');
    TrimAndDropEmpty(segments)
  }

  /** `extractBookTitles`: the titles of the generated text, or no titles at
      all when the reply does not have the expected shape. */
  function ExtractBookTitles(resp: GenerationResponse): (r: seq<string>)
    ensures GeneratedText(resp).None? ==> r == []
    ensures GeneratedText(resp).Some? ==> r == TitlesFromText(GeneratedText(resp).value)
    ensures forall i :: 0 <= i < |r| ==> ValidTitle(r[i])
  {
    match GeneratedText(resp)
    case None => []
    case Some(text) => TitlesFromText(text)
  }

  // ---------------------------------------------------------------------
  // Parsing is the inverse of the format the prompt asks for

  predicate AllValid(ts: seq<string>) {
    forall i :: 0 <= i < |ts| ==> ValidTitle(ts[i])
  }

  lemma {:induction false} JoinedTitlesShape(ts: seq<string>)
    requires AllValid(ts) && |ts| > 0
    ensures var j := Join(ts, " | "); |j| > 0 && IsTrimmed(j) && '\n' !in j
  {
    if |ts| > 1 {
      JoinedTitlesShape(ts[1..]);
      var rest := Join(ts[1..], " | ");
      var j := ts[0] + " | " + rest;
      assert j[0] == ts[0][0];
      assert j[|j| - 1] == rest[|rest| - 1];
      assert forall k :: 0 <= k < |j| ==> j[k] in ts[0] || j[k] in " | " || j[k] in rest by {
        forall k | 0 <= k < |j|
          ensures j[k] in ts[0] || j[k] in " | " || j[k] in rest
        {
          if k < |ts[0]| {
          } else if k < |ts[0]| + 3 {
            assert j[k] == " | "[k - |ts[0]|];
          } else {
            assert j[k] == rest[k - |ts[0]| - 3];
          }
        }
      }
    }
  }

  lemma SpaceHasNoPipe(p: string)
    requires AllSpace(p)
    ensures '|' !in p
  {
    forall k | 0 <= k < |p| ensures p[k] != '|' { assert IsSpace(p[k]); }
  }

  lemma TrimAndDropEmptyCons(a: string, xs: seq<string>)
    requires |Trim(a)| > 0
    ensures TrimAndDropEmpty([a] + xs) == [Trim(a)] + TrimAndDropEmpty(xs)
  {
    assert ([a] + xs)[0] == a;
    assert ([a] + xs)[1..] == xs;
  }

  /** One padded title on its own is a single segment that trims to it. */
  lemma SegmentsOfOneTitle(p: string, t: string)
    requires AllSpace(p) && ValidTitle(t)
    ensures TrimAndDropEmpty(Split(p + t, '|')) == [t]
  {
    SpaceHasNoPipe(p);
    assert '|' !in p + t by {
      assert forall x :: x in p + t ==> x in p || x in t;
    }
    SplitWithoutSeparator(p + t, '|');
    TrimStripsPadding(p, t, []);
    assert p + t + [] == p + t;
    TrimAndDropEmptyCons(p + t, []);
  }

  /** Padding alone is one blank segment, which is dropped. */
  lemma SegmentsOfPadding(p: string)
    requires AllSpace(p)
    ensures TrimAndDropEmpty(Split(p, '|')) == []
  {
    SpaceHasNoPipe(p);
    SplitWithoutSeparator(p, '|');
    assert [p][1..] == [];
  }

  /** The first title of several is cut off at the first pipe. */
  lemma SegmentsOfFirstTitle(p: string, t: string, rest: string)
    requires AllSpace(p) && ValidTitle(t)
    ensures TrimAndDropEmpty(Split(p + (t + " | " + rest), '|'))
         == [t] + TrimAndDropEmpty(Split(" " + rest, '|'))
  {
    var a := p + t + " ";
    var b := " " + rest;
    assert p + (t + " | " + rest) == a + ['|'] + b;
    SpaceHasNoPipe(p);
    assert '|' !in a by {
      assert forall x :: x in a ==> x in p || x in t || x == ' ';
    }
    SplitAtFirst(a, '|', b);
    assert AllSpace(" ");
    TrimStripsPadding(p, t, " ");
    TrimAndDropEmptyCons(a, Split(b, '|'));
  }

  lemma SegmentsOfJoinedTitlesStep(p: string, ts: seq<string>)
    requires AllSpace(p) && |ts| >= 2 && ValidTitle(ts[0])
    requires TrimAndDropEmpty(Split(" " + Join(ts[1..], " | "), '|')) == ts[1..]
    ensures TrimAndDropEmpty(Split(p + Join(ts, " | "), '|')) == ts
  {
    var rest := Join(ts[1..], " | ");
    assert Join(ts, " | ") == ts[0] + " | " + rest;
    SegmentsOfFirstTitle(p, ts[0], rest);
    calc {
      TrimAndDropEmpty(Split(p + Join(ts, " | "), '|'));
      TrimAndDropEmpty(Split(p + (ts[0] + " | " + rest), '|'));
      [ts[0]] + TrimAndDropEmpty(Split(" " + rest, '|'));
      [ts[0]] + ts[1..];
      ts;
    }
  }

  /** `Split` applied after some padding `p` to titles joined with " | ":
      trimming and filtering the segments yields the titles back. */
  lemma {:induction false} SegmentsOfJoinedTitles(p: string, ts: seq<string>)
    requires AllSpace(p) && AllValid(ts)
    ensures TrimAndDropEmpty(Split(p + Join(ts, " | "), '|')) == ts
    decreases |ts|
  {
    if |ts| == 0 {
      assert p + Join(ts, " | ") == p;
      SegmentsOfPadding(p);
    } else if |ts| == 1 {
      assert p + Join(ts, " | ") == p + ts[0];
      SegmentsOfOneTitle(p, ts[0]);
    } else {
      assert AllValid(ts[1..]) by {
        forall i | 0 <= i < |ts[1..]| ensures ValidTitle(ts[1..][i]) { assert ts[1..][i] == ts[i + 1]; }
      }
      assert AllSpace(" ");
      SegmentsOfJoinedTitles(" ", ts[1..]);
      SegmentsOfJoinedTitlesStep(p, ts);
    }
  }

  /** Text in the requested format `Title 1 | Title 2 | ...` parses back to
      exactly the titles it was made of, in order. */
  lemma TitlesRoundTrip(ts: seq<string>)
    requires AllValid(ts)
    ensures TitlesFromText(Join(ts, " | ")) == ts
  {
    var j := Join(ts, " | ");
    if |ts| > 0 {
      JoinedTitlesShape(ts);
      TrimOfTrimmed(j);
      SegmentsOfJoinedTitles("", ts);
      assert "" + j == j;
    } else {
      assert j == "";
      assert Split("", '|') == [""];
    }
  }

  /** Pipes separate titles, and the spaces around them are trimmed away. */
  lemma ThreeTitles()
    ensures TitlesFromText("A | B | C") == ["A", "B", "C"]
  {
    var ts := ["A", "B", "C"];
    assert ValidTitle("A") && ValidTitle("B") && ValidTitle("C");
    assert AllValid(ts);
    assert ts[1..] == ["B", "C"];
    assert ts[1..][1..] == ["C"];
    assert Join(["C"], " | ") == "C";
    assert Join(["B", "C"], " | ") == "B" + " | " + "C";
    assert Join(ts, " | ") == "A" + " | " + ("B" + " | " + "C");
    assert "A" + " | " + ("B" + " | " + "C") == "A | B | C";
    TitlesRoundTrip(ts);
  }

  /** A newline does not separate titles: it is deleted before splitting,
      so "A\nB" is the one title "AB". */
  lemma NewlineJoinsTitle(a: string, b: string)
    requires ValidTitle(a) && ValidTitle(b)
    ensures TitlesFromText(a + "\n" + b) == [a + b]
  {
    var text := a + "\n" + b;
    assert Trim(text) == text by {
      assert text[0] == a[0] && text[|text| - 1] == b[|b| - 1];
      TrimOfTrimmed(text);
    }
    assert Delete(text, '\n') == a + b by {
      DeleteSplice(a, '\n', b);
    }
    var ab := a + b;
    assert '|' !in ab;
    SplitWithoutSeparator(ab, '|');
    assert TrimAndDropEmpty([ab]) == [ab] by {
      assert ab[0] == a[0] && ab[|ab| - 1] == b[|b| - 1];
      TrimOfTrimmed(ab);
      assert [ab][1..] == [];
    }
  }

  // ---------------------------------------------------------------------
  // Classifying the call

  /** What the generation request produced: the fetch rejected, or an HTTP
      reply whose body did or did not parse as JSON. */
  datatype GenerationReply =
    | TransportFailure
    | HttpReply(ok: bool, status: nat, body: Option<GenerationResponse>)

  /** Why no titles came back. */
  datatype GenerationError =
    | TransportFailed       // fetch rejected; the engine's message is not modelled
    | RequestFailed(status: nat)
    | BodyUnreadable        // response.json() rejected; message not modelled
    | NoRecommendations

  /** The message `alert` shows after "Error getting recommendations: ", where
      the source composes it. */
  function ErrorMessage(e: GenerationError): (r: Option<string>)
    ensures r.Some? <==> e.RequestFailed? || e.NoRecommendations?
    ensures e.RequestFailed? ==> r == Some("API request failed: " + NatToString(e.status))
    ensures e.NoRecommendations? ==> r == Some("Could not extract book recommendations")
  {
    match e
    case RequestFailed(status) => Some("API request failed: " + NatToString(status))
    case NoRecommendations => Some("Could not extract book recommendations")
    case _ => None
  }

  /** The outcome of `callGeminiAPI`. A non-ok status fails before the body
      is read; an ok reply fails exactly when no title can be extracted;
      otherwise the extracted titles are the recommendations. */
  function ClassifyReply(reply: GenerationReply): (r: Result<seq<string>, GenerationError>)
    ensures reply.HttpReply? && !reply.ok ==> r == Failure(RequestFailed(reply.status))
    ensures r.Success? <==>
      reply.HttpReply? && reply.ok && reply.body.Some? && |ExtractBookTitles(reply.body.value)| > 0
    ensures r.Success? ==> r.value == ExtractBookTitles(reply.body.value)
    ensures r.Success? ==> |r.value| > 0 && AllValid(r.value)
    ensures reply.HttpReply? && reply.ok && reply.body.Some? && |ExtractBookTitles(reply.body.value)| == 0
      ==> r == Failure(NoRecommendations)
    ensures reply.HttpReply? && reply.ok && reply.body.Some? && GeneratedText(reply.body.value).None?
      ==> r == Failure(NoRecommendations)
  {
    match reply
    case TransportFailure => Failure(TransportFailed)
    case HttpReply(ok, status, body) =>
      if !ok then Failure(RequestFailed(status))
      else
        match body
        case None => Failure(BodyUnreadable)
        case Some(resp) =>
          var titles := ExtractBookTitles(resp);
          if |titles| > 0 then Success(titles) else Failure(NoRecommendations)
  }
  /** A rejected request is reported with its status code. */
  lemma RejectedStatusIsReported(status: nat, body: Option<GenerationResponse>)
    ensures var r := ClassifyReply(HttpReply(false, status, body));
      && r == Failure(RequestFailed(status))
      && ErrorMessage(r.error).Some?
      && Contains(ErrorMessage(r.error).value, NatToString(status))
  {
    ContainsInfix("API request failed: ", NatToString(status), "");
    assert "API request failed: " + NatToString(status) + "" == "API request failed: " + NatToString(status);
  }

}

=== FILE: preferences.dfy ===
/** The preference form of the home page: the genre toggle, the two slider
    descriptions, the `userData` record built on submission, and the
    generation prompt rendered from it (src/components/Homepage/homepage.jsx). */
module Preferences {
  import opened Text

  // ---------------------------------------------------------------------
  // Genre selection

  /** Every genre of `xs` except `g`, in order (`prev.filter(x => x !== g)`). */
  function Without(xs: seq<string>, g: string): (r: seq<string>)
    ensures g !in r
    ensures forall x :: x != g ==> (x in r <==> x in xs)
    ensures |r| <= |xs|
  {
    if |xs| == 0 then []
    else if xs[0] == g then Without(xs[1..], g)
    else
      assert xs == [xs[0]] + xs[1..];
      [xs[0]] + Without(xs[1..], g)
  }

  /** Clicking a genre badge: deselect it if selected, else append it. */
  function ToggleGenre(prev: seq<string>, g: string): (r: seq<string>)
    ensures g in r <==> g !in prev
    ensures forall x :: x != g ==> (x in r <==> x in prev)
  {
    if g in prev then Without(prev, g) else prev + [g]
  }

  predicate NoDuplicates(xs: seq<string>) {
    forall i, j :: 0 <= i < j < |xs| ==> xs[i] != xs[j]
  }

  lemma {:induction false} WithoutKeepsDistinct(xs: seq<string>, g: string)
    requires NoDuplicates(xs)
    ensures NoDuplicates(Without(xs, g))
  {
    if |xs| > 0 {
      assert NoDuplicates(xs[1..]);
      WithoutKeepsDistinct(xs[1..], g);
      if xs[0] != g {
        assert xs[0] !in xs[1..];
        assert xs[0] !in Without(xs[1..], g);
      }
    }
  }

  /** The selected-genre list never acquires a duplicate. */
  lemma ToggleKeepsDistinct(prev: seq<string>, g: string)
    requires NoDuplicates(prev)
    ensures NoDuplicates(ToggleGenre(prev, g))
  {
    if g in prev {
      WithoutKeepsDistinct(prev, g);
    }
  }

  lemma {:induction false} WithoutAbsent(xs: seq<string>, g: string)
    requires g !in xs
    ensures Without(xs, g) == xs
  {
    if |xs| > 0 {
      WithoutAbsent(xs[1..], g);
      assert xs == [xs[0]] + xs[1..];
    }
  }

  /** Selecting an unselected genre and deselecting it again restores the
      list exactly, order included. */
  lemma ToggleTwiceRestores(prev: seq<string>, g: string)
    requires g !in prev
    ensures ToggleGenre(ToggleGenre(prev, g), g) == prev
  {
    WithoutAbsent(prev, g);
    assert Without(prev + [g], g) == Without(prev, g) by {
      WithoutAppendSelf(prev, g);
    }
  }

  lemma {:induction false} WithoutAppendSelf(xs: seq<string>, g: string)
    ensures Without(xs + [g], g) == Without(xs, g)
  {
    if |xs| == 0 {
      assert xs + [g] == [g];
      assert [g][1..] == [];
    } else {
      assert (xs + [g])[1..] == xs[1..] + [g];
      WithoutAppendSelf(xs[1..], g);
    }
  }

  // ---------------------------------------------------------------------
  // Slider descriptions

  /** The reading-level slider runs from 0 to 10 in steps of 0.1; the model
      keeps it as a whole number of tenths so that the thresholds are exact. */
  datatype ReadingTier = Beginner | Intermediate | Advanced {
    function Rank(): nat {
      match this
      case Beginner => 0
      case Intermediate => 1
      case Advanced => 2
    }

    function Description(): string {
      match this
      case Beginner => "Beginner (rare reader, light reads)"
      case Intermediate => "Intermediate (comfortable with longer fiction)"
      case Advanced => "Advanced (enjoys complex plots, prose, classics)"
    }
  }

  /** The threshold table of `getReadingLevelText`: up to 3 is Beginner, up to
      7 Intermediate, anything above Advanced. */
  function ReadingTierOf(tenths: nat): (t: ReadingTier)
    ensures tenths <= 30 ==> t == Beginner
    ensures 30 < tenths <= 70 ==> t == Intermediate
    ensures 70 < tenths ==> t == Advanced
  {
    if tenths <= 30 then Beginner
    else if tenths <= 70 then Intermediate
    else Advanced
  }

  /** `getReadingLevelText`: total, always one of the three descriptions. */
  function ReadingLevelText(tenths: nat): (r: string)
    ensures r in {Beginner.Description(), Intermediate.Description(), Advanced.Description()}
    ensures tenths <= 30 ==> r == Beginner.Description()
    ensures 30 < tenths <= 70 ==> r == Intermediate.Description()
    ensures 70 < tenths ==> r == Advanced.Description()
  {
    ReadingTierOf(tenths).Description()
  }

  /** A higher slider value never gives a lower reading tier. */
  lemma ReadingTierMonotone(a: nat, b: nat)
    requires a <= b
    ensures ReadingTierOf(a).Rank() <= ReadingTierOf(b).Rank()
  {
  }

  /** How JavaScript prints a slider value with at most one decimal:
      `5` for 5.0, `5.1` for 5.1. */
  function TenthsToString(tenths: nat): (r: string)
    ensures |r| >= 1
  {
    NatToString(tenths / 10) + (if tenths % 10 == 0 then "" else "." + [DigitChar(tenths % 10)])
  }

  datatype LengthTier = Quick | Medium | Long | Epic {
    function Rank(): nat {
      match this
      case Quick => 0
      case Medium => 1
      case Long => 2
      case Epic => 3
    }

    /** The words before the page count. */
    function Label(): string {
      match this
      case Quick => "Quick reads (~"
      case Medium => "Medium reads (~"
      case Long => "Long reads (~"
      case Epic => "Epic reads ("
    }

    /** The words after the page count: an epic read is "N+ pages". */
    function PagesSuffix(): string {
      if this == Epic then "+ pages)" else " pages)"
    }
  }

  /** The threshold table of `getTimeCommitmentText`. */
  function LengthTierOf(pages: nat): (t: LengthTier)
    ensures pages <= 150 ==> t == Quick
    ensures 150 < pages <= 300 ==> t == Medium
    ensures 300 < pages <= 450 ==> t == Long
    ensures 450 < pages ==> t == Epic
  {
    if pages <= 150 then Quick
    else if pages <= 300 then Medium
    else if pages <= 450 then Long
    else Epic
  }

  /** A longer page preference never gives a shorter length tier. */
  lemma LengthTierMonotone(a: nat, b: nat)
    requires a <= b
    ensures LengthTierOf(a).Rank() <= LengthTierOf(b).Rank()
  {
  }

  /** `getTimeCommitmentText`: the tier's label, then the page count. */
  function TimeCommitmentText(pages: nat): (r: string)
    ensures StartsWith(r, LengthTierOf(pages).Label())
    ensures Contains(r, NatToString(pages) + LengthTierOf(pages).PagesSuffix())
  {
    var tier := LengthTierOf(pages);
    var rest := NatToString(pages) + tier.PagesSuffix();
    StartsWithConcat(tier.Label(), rest);
    ContainsInfix(tier.Label(), rest, []);
    assert tier.Label() + rest + [] == tier.Label() + rest;
    tier.Label() + rest
  }

  // ---------------------------------------------------------------------
  // The submitted preferences and the prompt

  /** `userData` as assembled by `handleThinkForMe` (the logging timestamp is
      not modelled). */
  datatype UserData = UserData(
    selectedGenres: seq<string>,
    readingValue: nat,            // tenths of the slider value
    readingDescription: string,
    pages: nat,
    timeDescription: string,
    favoriteBooks: string)

  /** The form state turned into `userData`: slider descriptions derived from
      the values, favourite-books text trimmed. */
  function BuildUserData(genres: seq<string>, tenths: nat, pages: nat, favorites: string): (u: UserData)
    ensures u.selectedGenres == genres && u.readingValue == tenths && u.pages == pages
    ensures u.readingDescription == ReadingTierOf(tenths).Description()
    ensures u.timeDescription == TimeCommitmentText(pages)
    ensures u.favoriteBooks == Trim(favorites)
    ensures IsTrimmed(u.favoriteBooks)
    ensures |u.favoriteBooks| == 0 <==> AllSpace(favorites)
  {
    UserData(genres, tenths, ReadingLevelText(tenths), pages, TimeCommitmentText(pages), Trim(favorites))
  }

  /** Surrounding white space typed into the favourite-books box never reaches
      the prompt, and nothing else is lost. */
  lemma FavoritesArePadStripped(genres: seq<string>, tenths: nat, pages: nat, p: string, f: string, q: string)
    requires AllSpace(p) && AllSpace(q) && IsTrimmed(f)
    ensures BuildUserData(genres, tenths, pages, p + f + q).favoriteBooks == f
  {
    TrimStripsPadding(p, f, q);
  }

  /** The lines of `generateGeminiPrompt`, top to bottom. */
  function PromptLines(u: UserData): seq<string> {
    [ Intro, "", "User Preferences:",
      GenreLine(u.selectedGenres),
      ReadingLine(u),
      TimeLine(u),
      FavoritesLine(u),
      "", "Instructions:", AnalyzeLine, ConsiderLine,
      "3. Match the page count preference (" + NatToString(u.pages) + " pages approximately)",
      ExactlyFiveLine, PipesOnlyLine,
      "", ExampleLine, "", RespondLine ]
  }

  const Intro := "You are a professional book recommendation system. Based on the user's preferences, suggest exactly 5 books that match their criteria."
  const AnalyzeLine := "1. Analyze the user's favorite books to understand their taste"
  const ConsiderLine := "2. Consider their preferred genres and reading level"
  const ExampleLine := "Example format: Book Title 1 | Book Title 2 | Book Title 3 | Book Title 4 | Book Title 5"
  const RespondLine := "Respond with only the pipe-separated book titles."

  function TimeLine(u: UserData): string {
    "- Time Commitment: " + u.timeDescription
  }

  function FavoritesLine(u: UserData): string {
    "- Favorite Books: " + u.favoriteBooks
  }

  function ReadingLine(u: UserData): string {
    "- Reading Level: " + u.readingDescription + " (" + TenthsToString(u.readingValue) + "/10)"
  }

  function GenreLine(genres: seq<string>): string {
    "- Preferred Genres: " + Join(genres, ", ")
  }

  const ExactlyFiveLine := "4. Provide exactly 5 book recommendations"
  const PipesOnlyLine := "5. Return ONLY the book titles separated by pipes, no other text or explanation"

  /** `generateGeminiPrompt`: the lines above, separated by newlines. */
  function Prompt(u: UserData): string {
    Join(PromptLines(u), "\n")
  }

  /** Each preference appears verbatim in the prompt on a line of its own, and
      so do the exactly-five and pipes-only instructions. An empty genre
      selection leaves the genre line with nothing after the colon. */
  lemma PromptCarriesPreferences(u: UserData)
    ensures Contains(Prompt(u), "\n" + GenreLine(u.selectedGenres) + "\n")
    ensures Contains(Prompt(u), "\n" + ReadingLine(u) + "\n")
    ensures Contains(Prompt(u), "\n" + TimeLine(u) + "\n")
    ensures Contains(Prompt(u), "\n" + FavoritesLine(u) + "\n")
    ensures Contains(Prompt(u), "\n" + ExactlyFiveLine + "\n")
    ensures Contains(Prompt(u), "\n" + PipesOnlyLine + "\n")
  {
    var lines := PromptLines(u);
    PromptLinesAt(u);
    PromptLine(lines, 3, GenreLine(u.selectedGenres));
    PromptLine(lines, 4, ReadingLine(u));
    PromptLine(lines, 5, TimeLine(u));
    PromptLine(lines, 6, FavoritesLine(u));
    PromptLine(lines, 12, ExactlyFiveLine);
    PromptLine(lines, 13, PipesOnlyLine);
  }

  /** The prompt opens with the role sentence, on a line of its own. */
  lemma PromptOpensWithIntro(u: UserData)
    ensures StartsWith(Prompt(u), Intro + "\n")
  {
    var lines := PromptLines(u);
    assert lines[0] == Intro && |lines| > 1;
    assert Join(lines, "\n") == Intro + "\n" + Join(lines[1..], "\n");
    StartsWithConcat(Intro + "\n", Join(lines[1..], "\n"));
  }

  /** Where the template puts each preference and each instruction. */
  lemma PromptLinesAt(u: UserData)
    ensures var lines := PromptLines(u);
      && |lines| == 18
      && lines[3] == GenreLine(u.selectedGenres) && lines[4] == ReadingLine(u)
      && lines[5] == TimeLine(u) && lines[6] == FavoritesLine(u)
      && lines[12] == ExactlyFiveLine && lines[13] == PipesOnlyLine
  {
  }

  lemma PromptLine(lines: seq<string>, i: nat, line: string)
    requires 0 < i < |lines| - 1 && lines[i] == line
    ensures Contains(Join(lines, "\n"), "\n" + line + "\n")
  {
    JoinContainsInnerLine(lines, "\n", i);
  }
}

=== FILE: text.dfy ===
/** The string operations of the JavaScript standard library that the
    recommendation pipeline relies on, restricted to ASCII: `trim`, the
    regular-expression class `\s`, `toLowerCase`, `includes`, `split`,
    `join`, `replace` with a string pattern, and number-to-string. */
module Text {
  import opened Wrappers

  /** ASCII white space: what both `String.prototype.trim` and `\s` skip. */
  predicate IsSpace(c: char) {
    c == ' ' || c == '\t' || c == '\n' || c == '\U{0B}' || c == '\U{0C}' || c == '\r'
  }

  predicate AllSpace(s: string) {
    forall i :: 0 <= i < |s| ==> IsSpace(s[i])
  }

  /** Neither end of `s` is white space. */
  predicate IsTrimmed(s: string) {
    |s| == 0 || (!IsSpace(s[0]) && !IsSpace(s[|s| - 1]))
  }

  /** How many white-space characters `s` starts with. */
  function LeadingSpaces(s: string): (k: nat)
    ensures k <= |s|
    ensures forall i :: 0 <= i < k ==> IsSpace(s[i])
    ensures k == |s| || !IsSpace(s[k])
  {
    if |s| > 0 && IsSpace(s[0]) then
      var k := LeadingSpaces(s[1..]);
      assert forall i :: 1 <= i < k + 1 ==> s[i] == s[1..][i - 1];
      k + 1
    else 0
  }

  /** How many white-space characters `s` ends with. */
  function TrailingSpaces(s: string): (k: nat)
    ensures k <= |s|
    ensures forall i :: |s| - k <= i < |s| ==> IsSpace(s[i])
    ensures k == |s| || !IsSpace(s[|s| - k - 1])
  {
    if |s| > 0 && IsSpace(s[|s| - 1]) then
      var k := TrailingSpaces(s[..|s| - 1]);
      assert forall i :: |s| - k - 1 <= i < |s| - 1 ==> s[i] == s[..|s| - 1][i];
      k + 1
    else 0
  }

  /** Drops leading white space: the result is the longest suffix that does
      not start with white space, and only white space was dropped. */
  function TrimStart(s: string): (r: string)
    ensures |r| <= |s| && r == s[|s| - |r|..]
    ensures AllSpace(s[..|s| - |r|])
    ensures |r| == 0 || !IsSpace(r[0])
  {
    var k := LeadingSpaces(s);
    s[k..]
  }

  /** Drops trailing white space: the result is the longest prefix that does
      not end with white space, and only white space was dropped. */
  function TrimEnd(s: string): (r: string)
    ensures |r| <= |s| && r == s[..|r|]
    ensures AllSpace(s[|r|..])
    ensures |r| == 0 || !IsSpace(r[|r| - 1])
  {
    var k := TrailingSpaces(s);
    s[..|s| - k]
  }

  /** `s.trim()`. */
  function Trim(s: string): (r: string)
    ensures IsTrimmed(r)
    ensures |r| <= |s|
    ensures |r| == 0 <==> AllSpace(s)
  {
    TrimShape(s);
    TrimEnd(TrimStart(s))
  }

  lemma TrimShape(s: string)
    ensures var r := TrimEnd(TrimStart(s));
      IsTrimmed(r) && |r| <= |s| && (|r| == 0 <==> AllSpace(s))
  {
    var t := TrimStart(s);
    var r := TrimEnd(t);
    var k := |s| - |t|;
    if |r| > 0 {
      assert r[0] == t[0] == s[k];
    } else {
      assert t[|r|..] == t;
      assert |t| == 0;
      forall i | 0 <= i < |s| ensures IsSpace(s[i]) {
        assert s[i] == s[..k][i];
      }
    }
  }

  /** Trimming only removes characters. */
  lemma TrimKeepsAbsent(s: string, c: char)
    requires c !in s
    ensures c !in Trim(s)
  {
    var t := TrimStart(s);
    assert t == s[|s| - |t|..];
    assert TrimEnd(t) == t[..|TrimEnd(t)|];
  }

  lemma {:induction false} TrimStartSkipsPadding(p: string, t: string)
    requires AllSpace(p)
    ensures TrimStart(p + t) == TrimStart(t)
    decreases |p|
  {
    if |p| > 0 {
      assert (p + t)[1..] == p[1..] + t;
      TrimStartSkipsPadding(p[1..], t);
    } else {
      assert p + t == t;
    }
  }

  lemma {:induction false} TrimEndSkipsPadding(t: string, q: string)
    requires AllSpace(q)
    ensures TrimEnd(t + q) == TrimEnd(t)
    decreases |q|
  {
    if |q| > 0 {
      assert (t + q)[..|t + q| - 1] == t + q[..|q| - 1];
      TrimEndSkipsPadding(t, q[..|q| - 1]);
    } else {
      assert t + q == t;
    }
  }

  /** Trimming recovers a trimmed string from any white-space padding. */
  lemma TrimStripsPadding(p: string, t: string, q: string)
    requires AllSpace(p) && AllSpace(q) && IsTrimmed(t)
    ensures Trim(p + t + q) == t
  {
    var tq := t + q;
    assert p + t + q == p + tq;
    TrimStartSkipsPadding(p, tq);
    if |t| == 0 {
      assert tq == q;
      TrimStartOfSpace(q);
    } else {
      TrimStartKeeps(tq);
      TrimEndSkipsPadding(t, q);
      TrimEndKeeps(t);
    }
  }

  lemma TrimStartOfSpace(q: string)
    requires AllSpace(q)
    ensures TrimStart(q) == []
  {
    var u := TrimStart(q);
    assert AllSpace(q[|q| - |u|..]);
  }

  lemma TrimStartKeeps(s: string)
    requires |s| > 0 && !IsSpace(s[0])
    ensures TrimStart(s) == s
  {
  }

  lemma TrimEndKeeps(s: string)
    requires |s| > 0 && !IsSpace(s[|s| - 1])
    ensures TrimEnd(s) == s
  {
  }

  /** `trim` is idempotent and leaves trimmed strings alone. */
  lemma TrimOfTrimmed(s: string)
    requires IsTrimmed(s)
    ensures Trim(s) == s
  {
    TrimStripsPadding([], s, []);
    assert [] + s + [] == s;
  }

  // ---------------------------------------------------------------------
  // Case and substrings

  function LowerChar(c: char): char {
    if 'A' <= c <= 'Z' then (c as int + 32) as char else c
  }

  /** `s.toLowerCase()` on ASCII. */
  function ToLower(s: string): (r: string)
    ensures |r| == |s|
    ensures forall i :: 0 <= i < |s| ==> r[i] == LowerChar(s[i])
  {
    seq(|s|, i requires 0 <= i < |s| => LowerChar(s[i]))
  }

  predicate StartsWith(s: string, p: string) {
    |p| <= |s| && s[..|p|] == p
  }

  lemma StartsWithConcat(a: string, b: string)
    ensures StartsWith(a + b, a)
  {
    assert (a + b)[..|a|] == a;
  }

  /** `s.includes(p)`: `p` occurs in `s` at some position. */
  predicate Contains(s: string, p: string)
    decreases |s|
  {
    StartsWith(s, p) || (|s| > 0 && Contains(s[1..], p))
  }

  lemma {:induction false} ContainsInfix(x: string, a: string, y: string)
    ensures Contains(x + a + y, a)
    decreases |x|
  {
    if |x| == 0 {
      assert x + a + y == a + y;
      assert (a + y)[..|a|] == a;
    } else {
      assert (x + a + y)[1..] == x[1..] + a + y;
      ContainsInfix(x[1..], a, y);
    }
  }

  lemma {:induction false} ContainsItself(s: string)
    ensures Contains(s, s)
  {
    assert s[..|s|] == s;
  }

  /** The first position at which `p` occurs in `s`, if any. */
  function IndexOf(s: string, p: string): (r: Option<nat>)
    ensures r.Some? <==> Contains(s, p)
    ensures r.Some? ==> r.value + |p| <= |s| && s[r.value..r.value + |p|] == p
    ensures r.Some? ==> forall j :: 0 <= j < r.value ==> !StartsWith(s[j..], p)
    decreases |s|
  {
    if StartsWith(s, p) then Some(0)
    else if |s| == 0 then None
    else
      match IndexOf(s[1..], p)
      case None => None
      case Some(k) =>
        IndexOfStep(s, p, k);
        Some(k + 1)
  }

  /** A first occurrence in `s[1..]` at `k`, when `s` itself does not start
      with `p`, is a first occurrence in `s` at `k + 1`. */
  lemma IndexOfStep(s: string, p: string, k: nat)
    requires |s| > 0 && !StartsWith(s, p)
    requires k + |p| <= |s| - 1 && s[1..][k..k + |p|] == p
    requires forall j :: 0 <= j < k ==> !StartsWith(s[1..][j..], p)
    ensures k + 1 + |p| <= |s| && s[k + 1..k + 1 + |p|] == p
    ensures forall j :: 0 <= j < k + 1 ==> !StartsWith(s[j..], p)
  {
    assert s[k + 1..k + 1 + |p|] == s[1..][k..k + |p|];
    forall j | 0 <= j < k + 1
      ensures !StartsWith(s[j..], p)
    {
      if j > 0 {
        assert s[j..] == s[1..][j - 1..];
      }
    }
  }

  /** `p` occurs in `s` at `i` and at no earlier position. */
  predicate FirstAt(s: string, p: string, i: nat) {
    && i + |p| <= |s| && s[i..i + |p|] == p
    && forall j :: 0 <= j < i ==> !StartsWith(s[j..], p)
  }

  /** `s.replace(p, q)` with a string pattern: only the first occurrence of
      `p` is replaced, and everything around it is kept. */
  function ReplaceFirst(s: string, p: string, q: string): (r: string)
    ensures !Contains(s, p) ==> r == s
    ensures Contains(s, p) ==> exists i: nat :: FirstAt(s, p, i) && r == s[..i] + q + s[i + |p|..]
    ensures Contains(s, p) ==> |r| == |s| - |p| + |q|
  {
    match IndexOf(s, p)
    case None => s
    case Some(i) =>
      assert FirstAt(s, p, i);
      s[..i] + q + s[i + |p|..]
  }

  /** When `s` starts with `p`, that leading occurrence is the one replaced
      and nothing after it is touched. */
  lemma ReplaceFirstAtStart(p: string, rest: string, q: string)
    ensures ReplaceFirst(p + rest, p, q) == q + rest
  {
    StartsWithConcat(p, rest);
    assert IndexOf(p + rest, p) == Some(0);
    assert (p + rest)[|p|..] == rest;
  }

  /** An occurrence of `p` with none starting earlier is the one replaced:
      what precedes it and what follows it come through unchanged. */
  lemma ReplaceFirstSplits(a: string, p: string, b: string, q: string)
    requires forall j :: 0 <= j < |a| ==> !StartsWith((a + p + b)[j..], p)
    ensures ReplaceFirst(a + p + b, p, q) == a + q + b
  {
    var s := a + p + b;
    ContainsInfix(a, p, b);
    assert s[|a|..][..|p|] == p;
    var i := IndexOf(s, p).value;
    assert s[i..][..|p|] == s[i..i + |p|];
    assert i == |a|;
    assert s[..i] == a && s[i + |p|..] == b;
  }

  // ---------------------------------------------------------------------
  // Splitting, joining, deleting

  /** `s.split(c)` for a one-character separator: always at least one
      segment, and no segment holds the separator. */
  function Split(s: string, c: char): (r: seq<string>)
    ensures |r| >= 1
    ensures forall i :: 0 <= i < |r| ==> c !in r[i]
  {
    if |s| == 0 then [""]
    else
      var rest := Split(s[1..], c);
      if s[0] == c then [""] + rest
      else [[s[0]] + rest[0]] + rest[1..]
  }

  /** `xs.join(sep)`. */
  function Join(xs: seq<string>, sep: string): string {
    if |xs| == 0 then ""
    else if |xs| == 1 then xs[0]
    else xs[0] + sep + Join(xs[1..], sep)
  }

  /** Splitting only removes separators. */
  lemma {:induction false} SplitKeepsAbsent(s: string, c: char, x: char)
    requires x !in s
    ensures forall i :: 0 <= i < |Split(s, c)| ==> x !in Split(s, c)[i]
  {
    if |s| > 0 {
      SplitKeepsAbsent(s[1..], c, x);
      var rest := Split(s[1..], c);
      assert x != s[0];
      if s[0] != c {
        assert x !in [s[0]] + rest[0];
      }
    }
  }

  lemma {:induction false} SplitWithoutSeparator(s: string, c: char)
    requires c !in s
    ensures Split(s, c) == [s]
  {
    if |s| > 0 {
      SplitWithoutSeparator(s[1..], c);
      assert [s[0]] + s[1..] == s;
    }
  }

  /** Splitting at the first separator peels off the segment before it. */
  lemma {:induction false} SplitAtFirst(a: string, c: char, b: string)
    requires c !in a
    ensures Split(a + [c] + b, c) == [a] + Split(b, c)
    decreases |a|
  {
    if |a| == 0 {
      assert a + [c] + b == [c] + b;
      assert ([c] + b)[1..] == b;
    } else {
      assert (a + [c] + b)[1..] == a[1..] + [c] + b;
      SplitAtFirst(a[1..], c, b);
      assert [a[0]] + a[1..] == a;
    }
  }

  /** Splitting then joining with the same separator gives back the input. */
  lemma {:induction false} JoinSplit(s: string, c: char)
    ensures Join(Split(s, c), [c]) == s
  {
    if |s| > 0 {
      var rest := Split(s[1..], c);
      JoinSplit(s[1..], c);
      if s[0] == c {
        assert Split(s, c) == [""] + rest;
        assert ([""] + rest)[1..] == rest;
        assert s == [c] + s[1..];
      } else {
        var r := Split(s, c);
        assert r[0] == [s[0]] + rest[0];
        assert r[1..] == rest[1..];
        if |rest| == 1 {
          assert s == [s[0]] + s[1..];
        } else {
          assert Join(rest, [c]) == rest[0] + [c] + Join(rest[1..], [c]);
          assert s == [s[0]] + s[1..];
        }
      }
    }
  }

  lemma {:induction false} JoinAppend(a: seq<string>, b: seq<string>, sep: string)
    requires |a| > 0 && |b| > 0
    ensures Join(a + b, sep) == Join(a, sep) + sep + Join(b, sep)
  {
    if |a| == 1 {
      assert (a + b)[1..] == b;
    } else {
      assert (a + b)[1..] == a[1..] + b;
      JoinAppend(a[1..], b, sep);
    }
  }

  /** A joined list holds every inner element with a separator on each side. */
  lemma JoinContainsInnerLine(xs: seq<string>, sep: string, i: nat)
    requires 0 < i < |xs| - 1
    ensures Contains(Join(xs, sep), sep + xs[i] + sep)
  {
    assert xs == xs[..i] + xs[i..];
    JoinAppend(xs[..i], xs[i..], sep);
    assert xs[i..] == [xs[i]] + xs[i + 1..];
    JoinAppend([xs[i]], xs[i + 1..], sep);
    var x, y := Join(xs[..i], sep), Join(xs[i + 1..], sep);
    assert Join(xs, sep) == x + (sep + xs[i] + sep) + y;
    ContainsInfix(x, sep + xs[i] + sep, y);
  }

  /** `s.replace(/c/g, '')`: every `c` deleted, everything else kept in order. */
  function Delete(s: string, c: char): (r: string)
    ensures c !in r
    ensures forall x :: x != c ==> (x in r <==> x in s)
    ensures c !in s ==> r == s
  {
    if |s| == 0 then ""
    else if s[0] == c then Delete(s[1..], c)
    else
      assert s == [s[0]] + s[1..];
      [s[0]] + Delete(s[1..], c)
  }

  /** Deletion works piece by piece, so the kept characters stay in order. */
  lemma {:induction false} DeleteAppend(a: string, b: string, c: char)
    ensures Delete(a + b, c) == Delete(a, c) + Delete(b, c)
    decreases |a|
  {
    if |a| == 0 {
      assert a + b == b;
    } else {
      assert (a + b)[0] == a[0];
      assert (a + b)[1..] == a[1..] + b;
      DeleteAppend(a[1..], b, c);
    }
  }

  /** A single character is dropped exactly when it is `c`. */
  lemma DeleteOne(x: char, c: char)
    ensures Delete([x], c) == if x == c then [] else [x]
  {
    assert [x][1..] == [];
  }

  /** Deleting the only `c` between two pieces joins them. */
  lemma {:induction false} DeleteSplice(a: string, c: char, b: string)
    requires c !in a && c !in b
    ensures Delete(a + [c] + b, c) == a + b
    decreases |a|
  {
    if |a| == 0 {
      assert a + [c] + b == [c] + b;
      assert ([c] + b)[1..] == b;
    } else {
      assert (a + [c] + b)[1..] == a[1..] + [c] + b;
      DeleteSplice(a[1..], c, b);
      assert a + b == [a[0]] + (a[1..] + b);
    }
  }

  // ---------------------------------------------------------------------
  // Numbers

  function DigitChar(d: nat): char
    requires d < 10
  {
    "0123456789"[d]
  }

  /** Decimal rendering of a natural number, as `String(n)` prints it. */
  function NatToString(n: nat): (r: string)
    ensures |r| >= 1
    ensures forall i :: 0 <= i < |r| ==> '0' <= r[i] <= '9'
  {
    if n < 10 then [DigitChar(n)] else NatToString(n / 10) + [DigitChar(n % 10)]
  }
}

=== FILE: themes.dfy ===
/** `extractThemes` of src/components/Homepage/suggestions.jsx: a book's
    themes are its catalog categories, cleaned of a leading fiction /
    non-fiction qualifier, followed by the keywords of a fixed vocabulary that
    its description mentions, capped at four, with "General" when nothing
    qualifies. */
module Themes {
  import opened Wrappers
  import opened Text

  /** The keyword vocabulary, in the order it is scanned. */
  const Vocabulary: seq<string> := [
    "Love", "Romance", "Adventure", "Mystery", "Science", "History", "Family",
    "Friendship", "War", "Politics", "Religion", "Philosophy", "Coming of Age",
    "Survival", "Magic", "Technology", "Drama", "Comedy", "Tragedy",
    "Alienation", "Identity", "Society"]

  const MaxThemes: nat := 4
  const DefaultTheme: string := "General"

  // ---------------------------------------------------------------------
  // Category cleaning: replace(/^(Fiction|Non-Fiction)\s*\/\s*/, "")

  /** `s` is the white space `w1`, a slash, the white space `w2`, then
      `rest`: what `\s*\/\s*` followed by `rest` looks like. */
  ghost predicate SlashThen(s: string, w1: string, w2: string, rest: string) {
    AllSpace(w1) && AllSpace(w2) && s == w1 + "/" + w2 + rest
  }

  /** `c` is the qualifier `q`, optional white space, a slash, optional white
      space and then `rest`. */
  ghost predicate Qualified(c: string, q: string, rest: string) {
    StartsWith(c, q) && exists w1, w2 :: SlashThen(c[|q|..], w1, w2, rest)
  }

  /** The rest of `c` after the qualifier `q`, white space, a slash and more
      white space, when `c` has that shape. */
  function AfterQualifier(c: string, q: string): (r: Option<string>)
    ensures r.Some? ==> Qualified(c, q, r.value)
    ensures r.Some? ==> |r.value| < |c| && r.value == c[|c| - |r.value|..]
    ensures r.Some? ==> |r.value| == 0 || !IsSpace(r.value[0])
  {
    if !StartsWith(c, q) then None
    else
      AfterQualifierFacts(c, q);
      AfterSlash(c[|q|..])
  }

  lemma AfterQualifierFacts(c: string, q: string)
    requires StartsWith(c, q)
    ensures var r := AfterSlash(c[|q|..]);
      r.Some? ==> Qualified(c, q, r.value) && |r.value| < |c| && r.value == c[|c| - |r.value|..]
  {
    var r := AfterSlash(c[|q|..]);
    if r.Some? {
      SuffixOfSuffix(c, c[|q|..], r.value);
    }
  }

  /** What follows optional white space and a slash, with leading white
      space removed; nothing when the first character after the white space
      is not a slash. */
  function AfterSlash(tail: string): (r: Option<string>)
    ensures r.Some? <==> |TrimStart(tail)| > 0 && TrimStart(tail)[0] == '/'
    ensures r.Some? ==> exists w1, w2 :: SlashThen(tail, w1, w2, r.value)
    ensures r.Some? ==> |r.value| < |tail| && r.value == tail[|tail| - |r.value|..]
    ensures r.Some? ==> |r.value| == 0 || !IsSpace(r.value[0])
  {
    var afterSpace := TrimStart(tail);
    if |afterSpace| > 0 && afterSpace[0] == '/' then
      var rest := TrimStart(afterSpace[1..]);
      SlashFound(tail, afterSpace, rest);
      Some(rest)
    else None
  }

  /** The white space, slash and white space that `AfterSlash` skips. */
  lemma SlashFound(tail: string, afterSpace: string, rest: string)
    requires afterSpace == TrimStart(tail) && |afterSpace| > 0 && afterSpace[0] == '/'
    requires rest == TrimStart(afterSpace[1..])
    ensures |rest| < |tail| && rest == tail[|tail| - |rest|..]
    ensures exists w1, w2 :: SlashThen(tail, w1, w2, rest)
  {
    var i := |tail| - |afterSpace|;
    var m := |afterSpace| - 1 - |rest|;
    var j := i + 1 + m;
    assert afterSpace == tail[i..];
    assert AllSpace(tail[..i]);
    assert tail[i] == '/';
    assert tail[i + 1..j] == afterSpace[1..][..m];
    assert rest == afterSpace[1..][m..];
    assert rest == tail[j..];
    SlashThenAt(tail, i, j);
  }

  lemma SlashThenAt(s: string, i: nat, j: nat)
    requires i < j <= |s| && s[i] == '/'
    requires AllSpace(s[..i]) && AllSpace(s[i + 1..j])
    ensures SlashThen(s, s[..i], s[i + 1..j], s[j..])
  {
    assert s == s[..i] + "/" + s[i + 1..j] + s[j..];
  }

  lemma SuffixOfSuffix(a: string, b: string, c: string)
    requires |b| <= |a| && |c| <= |b|
    requires b == a[|a| - |b|..] && c == b[|b| - |c|..]
    ensures c == a[|a| - |c|..]
  {
    assert a[|a| - |b|..][|b| - |c|..] == a[|a| - |c|..];
  }

  /** The category with a leading "Fiction /" or "Non-Fiction /" qualifier
      removed. Anything else passes through untouched: whenever something is
      removed the category had exactly that shape, and what remains is a
      suffix of the category that does not start with white space. */
  function CleanCategory(c: string): (r: string)
    ensures r != c ==> Qualified(c, "Fiction", r) || Qualified(c, "Non-Fiction", r)
    ensures !StartsWith(c, "Fiction") && !StartsWith(c, "Non-Fiction") ==> r == c
    ensures r != c ==> |r| < |c| && r == c[|c| - |r|..] && (|r| == 0 || !IsSpace(r[0]))
  {
    var fiction := AfterQualifier(c, "Fiction");
    var nonFiction := AfterQualifier(c, "Non-Fiction");
    if fiction.Some? then fiction.value
    else if nonFiction.Some? then nonFiction.value
    else c
  }

  /** A category without a slash, such as a bare "Fiction", "Fictional" or
      "Non-Fiction Essays", is kept as it is. */
  lemma CategoryWithoutSlashKept(c: string)
    requires '/' !in c
    ensures CleanCategory(c) == c
  {
  }

  lemma QualifierDoesNotClash(c: string)
    requires StartsWith(c, "Non-Fiction")
    ensures !StartsWith(c, "Fiction")
  {
    assert c[0] == "Non-Fiction"[0] == 'N';
  }

  lemma AfterQualifierOfShape(q: string, ws1: string, ws2: string, rest: string)
    requires AllSpace(ws1) && AllSpace(ws2)
    requires |rest| == 0 || !IsSpace(rest[0])
    ensures AfterQualifier(q + ws1 + "/" + ws2 + rest, q) == Some(rest)
  {
    var tail := ws1 + (['/'] + (ws2 + rest));
    Regroup(q, ws1, "/", ws2, rest);
    AfterQualifierOfTail(q, tail);
    SlashedTail(ws1, ws2, rest);
  }

  lemma Regroup(a: string, b: string, c: string, d: string, e: string)
    ensures a + b + c + d + e == a + (b + (c + (d + e)))
  {
  }

  lemma SlashedTail(ws1: string, ws2: string, rest: string)
    requires AllSpace(ws1) && AllSpace(ws2)
    requires |rest| == 0 || !IsSpace(rest[0])
    ensures AfterSlash(ws1 + (['/'] + (ws2 + rest))) == Some(rest)
  {
    var slashed := ['/'] + (ws2 + rest);
    TrimStartSkipsPadding(ws1, slashed);
    TrimStartKeeps(slashed);
    assert slashed[1..] == ws2 + rest;
    TrimStartSkipsPadding(ws2, rest);
    if |rest| > 0 {
      TrimStartKeeps(rest);
    }
  }

  lemma AfterQualifierOfTail(q: string, tail: string)
    ensures AfterQualifier(q + tail, q) == AfterSlash(tail)
  {
    StartsWithConcat(q, tail);
    assert (q + tail)[|q|..] == tail;
  }

  /** Exactly the shape the regular expression matches is removed: a
      qualifier, optional white space, a slash, optional white space. */
  lemma CleanCategoryStripsQualifier(q: string, ws1: string, ws2: string, rest: string)
    requires q == "Fiction" || q == "Non-Fiction"
    requires AllSpace(ws1) && AllSpace(ws2)
    requires |rest| == 0 || !IsSpace(rest[0])
    ensures CleanCategory(q + ws1 + "/" + ws2 + rest) == rest
  {
    var c := q + ws1 + "/" + ws2 + rest;
    AfterQualifierOfShape(q, ws1, ws2, rest);
    if q == "Non-Fiction" {
      QualifierDoesNotClash(c);
    }
  }

  /** The cleaned categories, in input order: `themes` before the keyword
      scan. A missing or empty category list contributes nothing. */
  function CategoryThemes(categories: Option<seq<string>>): (r: seq<string>)
    ensures categories.None? ==> r == []
    ensures categories.Some? ==> |r| == |categories.value|
    ensures categories.Some? ==> forall i :: 0 <= i < |r| ==> r[i] == CleanCategory(categories.value[i])
  {
    match categories
    case None => []
    case Some(cats) => seq(|cats|, i requires 0 <= i < |cats| => CleanCategory(cats[i]))
  }

  // ---------------------------------------------------------------------
  // Keyword scan

  /** The lowered description mentions the keyword. */
  predicate Mentions(descLower: string, w: string) {
    Contains(descLower, ToLower(w))
  }

  /** Some theme already present contains the keyword, ignoring case. */
  predicate Covered(themes: seq<string>, w: string) {
    exists i :: 0 <= i < |themes| && Contains(ToLower(themes[i]), ToLower(w))
  }

  /** `xs` is `ys` with some elements deleted, order kept. */
  predicate Selects<T(==)>(xs: seq<T>, ys: seq<T>)
    decreases |ys|
  {
    if |ys| == 0 then xs == []
    else xs == [] || (xs[0] == ys[0] && Selects(xs[1..], ys[1..])) || Selects(xs, ys[1..])
  }

  lemma CoveredByPrefix(a: seq<string>, b: seq<string>, w: string)
    requires Covered(a, w)
    ensures Covered(a + b, w)
  {
    var i :| 0 <= i < |a| && Contains(ToLower(a[i]), ToLower(w));
    assert (a + b)[i] == a[i];
  }

  lemma CoveredBySelf(themes: seq<string>, i: nat)
    requires i < |themes|
    ensures Covered(themes, themes[i])
  {
    ContainsItself(ToLower(themes[i]));
  }

  /** The keywords the `commonThemes.forEach` scan appends after `themes`:
      in vocabulary order, each one mentioned by the description and
      contained in no theme already present, including the keywords appended
      before it; and every mentioned keyword ends up contained in some
      theme. */
  function AddedKeywords(themes: seq<string>, descLower: string, words: seq<string>): (r: seq<string>)
    ensures Selects(r, words)
    ensures forall k :: 0 <= k < |r| ==> Mentions(descLower, r[k]) && !Covered(themes + r[..k], r[k])
    ensures forall j :: 0 <= j < |words| && Mentions(descLower, words[j]) ==> Covered(themes + r, words[j])
    decreases |words|
  {
    if |words| == 0 then []
    else
      var w := words[0];
      if Mentions(descLower, w) && !Covered(themes, w) then
        var rest := AddedKeywords(themes + [w], descLower, words[1..]);
        var r := [w] + rest;
        assert r[1..] == rest;
        MoveToSeeds(themes, w, rest);
        assert themes + r[..0] == themes;
        assert Covered(themes + r, w) by {
          CoveredBySelf(themes + r, |themes|);
        }
        assert forall j :: 1 <= j < |words| ==> words[j] == words[1..][j - 1];
        r
      else
        var rest := AddedKeywords(themes, descLower, words[1..]);
        assert Mentions(descLower, w) ==> Covered(themes + rest, w) by {
          if Mentions(descLower, w) {
            CoveredByPrefix(themes, rest, w);
          }
        }
        assert forall j :: 1 <= j < |words| ==> words[j] == words[1..][j - 1];
        rest
  }

  /** Appending `w` to the themes or in front of the scan's output gives the
      same lists. */
  lemma MoveToSeeds(themes: seq<string>, w: string, rest: seq<string>)
    ensures themes + ([w] + rest) == (themes + [w]) + rest
    ensures forall k :: 1 <= k <= |rest| ==> themes + ([w] + rest)[..k] == (themes + [w]) + rest[..k - 1]
  {
    forall k | 1 <= k <= |rest| ensures themes + ([w] + rest)[..k] == (themes + [w]) + rest[..k - 1] {
      assert ([w] + rest)[..k] == [w] + rest[..k - 1];
    }
  }

  /** The scan never appends a keyword twice. */
  lemma AddedKeywordsDistinct(themes: seq<string>, descLower: string, words: seq<string>)
    ensures var r := AddedKeywords(themes, descLower, words);
      forall k, k' :: 0 <= k < k' < |r| ==> r[k] != r[k']
  {
    var r := AddedKeywords(themes, descLower, words);
    forall k, k' | 0 <= k < k' < |r| ensures r[k] != r[k'] {
      assert (themes + r[..k'])[|themes| + k] == r[k];
      CoveredBySelf(themes + r[..k'], |themes| + k);
    }
  }

  // ---------------------------------------------------------------------
  // The whole extraction

  /** `if (description)`: a missing or empty description is not scanned. */
  function KeywordThemes(seeds: seq<string>, description: Option<string>): (r: seq<string>)
    ensures description.None? || |description.value| == 0 ==> r == []
    ensures description.Some? && |description.value| > 0
      ==> r == AddedKeywords(seeds, ToLower(description.value), Vocabulary)
  {
    match description
    case Some(d) => if |d| > 0 then AddedKeywords(seeds, ToLower(d), Vocabulary) else []
    case None => []
  }

  function Min(a: nat, b: nat): nat {
    if a <= b then a else b
  }

  /** `extractThemes`: one to four themes; the cleaned categories come
      first, in order, then scanned keywords in vocabulary order; "General"
      only when neither contributed anything. */
  function ExtractThemes(categories: Option<seq<string>>, description: Option<string>): (r: seq<string>)
    ensures 1 <= |r| <= MaxThemes
    ensures var seeds := CategoryThemes(categories);
      var all := seeds + KeywordThemes(seeds, description);
      && (|all| == 0 ==> r == [DefaultTheme])
      && (|all| > 0 ==> r == all[..Min(MaxThemes, |all|)])
    ensures categories.Some? ==> forall i :: 0 <= i < |r| && i < |categories.value| ==> r[i] == CleanCategory(categories.value[i])
  {
    var seeds := CategoryThemes(categories);
    var all := seeds + KeywordThemes(seeds, description);
    if |all| > 0 then all[..Min(MaxThemes, |all|)] else [DefaultTheme]
  }

  /** Unless the result is the lone default, each theme after the categories
      is a vocabulary keyword the description mentions, contained in no theme
      before it, and no keyword appears twice. */
  lemma KeywordThemesAreMentioned(categories: seq<string>, d: string)
    requires |d| > 0
    ensures var seeds := CategoryThemes(Some(categories));
      var r := ExtractThemes(Some(categories), Some(d));
      r != [DefaultTheme] ==>
        && (forall k :: |seeds| <= k < |r| ==> r[k] in Vocabulary && Mentions(ToLower(d), r[k]) && !Covered(r[..k], r[k]))
        && (forall k, k' :: |seeds| <= k < k' < |r| ==> r[k] != r[k'])
  {
    var seeds := CategoryThemes(Some(categories));
    var added := AddedKeywords(seeds, ToLower(d), Vocabulary);
    var all := seeds + added;
    if |all| > 0 {
      ScanPrefixFacts(seeds, ToLower(d), Vocabulary, Min(MaxThemes, |all|));
    }
  }

  /** What the scan promises survives cutting the theme list short. */
  lemma ScanPrefixFacts(seeds: seq<string>, descLower: string, words: seq<string>, n: nat)
    requires n <= |seeds| + |AddedKeywords(seeds, descLower, words)|
    ensures var r := (seeds + AddedKeywords(seeds, descLower, words))[..n];
      && (forall k :: |seeds| <= k < |r| ==> r[k] in words && Mentions(descLower, r[k]) && !Covered(r[..k], r[k]))
      && (forall k, k' :: |seeds| <= k < k' < |r| ==> r[k] != r[k'])
  {
    var added := AddedKeywords(seeds, descLower, words);
    var r := (seeds + added)[..n];
    AddedKeywordsDistinct(seeds, descLower, words);
    SelectsMembers(added, words);
    forall k | |seeds| <= k < |r|
      ensures r[k] in words && Mentions(descLower, r[k]) && !Covered(r[..k], r[k])
    {
      assert r[k] == added[k - |seeds|];
      assert r[..k] == seeds + added[..k - |seeds|];
    }
    forall k, k' | |seeds| <= k < k' < |r| ensures r[k] != r[k'] {
      assert r[k] == added[k - |seeds|] && r[k'] == added[k' - |seeds|];
    }
  }

  lemma {:induction false} SelectsMembers<T>(xs: seq<T>, ys: seq<T>)
    requires Selects(xs, ys)
    ensures forall x :: x in xs ==> x in ys
    decreases |ys|
  {
    if |ys| > 0 && |xs| > 0 {
      if xs[0] == ys[0] && Selects(xs[1..], ys[1..]) {
        SelectsMembers(xs[1..], ys[1..]);
        assert xs == [xs[0]] + xs[1..];
      } else {
        SelectsMembers(xs, ys[1..]);
      }
    }
  }

  /** A lone qualified category, without a description, gives just its
      subject: "Fiction / War" gives ["War"]. */
  lemma QualifiedCategoryAlone(q: string, ws1: string, ws2: string, rest: string)
    requires q == "Fiction" || q == "Non-Fiction"
    requires AllSpace(ws1) && AllSpace(ws2)
    requires |rest| > 0 && !IsSpace(rest[0])
    ensures ExtractThemes(Some([q + ws1 + "/" + ws2 + rest]), None) == [rest]
  {
    var c := q + ws1 + "/" + ws2 + rest;
    CleanCategoryStripsQualifier(q, ws1, ws2, rest);
    var seeds := CategoryThemes(Some([c]));
    assert seeds == [rest];
    assert seeds + KeywordThemes(seeds, None) == [rest];
  }

  /** With neither categories nor description the only theme is "General". */
  lemma NothingGivesGeneral()
    ensures ExtractThemes(None, None) == ["General"]
  {
  }
}

=== FILE: wrappers.dfy ===
/** Option and Result, the two shapes JavaScript expresses with `undefined`
    and with a thrown error. */
module Wrappers {

  /** A value that may be absent (`undefined` or `null` in the source). */
  datatype Option<+T> = None | Some(value: T) {

    /** The value, or `default` when absent. */
    function GetOr(default: T): T {
      match this
      case Some(v) => v
      case None => default
    }
  }

  /** Either a value or the error the source would have thrown. */
  datatype Result<+R, +E> = Success(value: R) | Failure(error: E)
}
